=== FILE: README.md ===
# light-cli in Dafny

A model of the input pipeline and the buffered output of light-cli. light-cli
is a `no_std` Rust library that reads command lines of the form
`COMMAND key=value key2=value2` from a serial port and reports them through
callbacks.

- **Tokenizer** (`tokenizer.dfy`, proofs in `tokenizer_lemmas.dfy`). It models
  the 64-byte input FIFO `rb`, the one-character UTF-8 decoder
  (`get_amount`, `get_char`), the token loop `get_tokens` with its
  `send_val` closure and pending text run `nextstr`, and `fill`.
- **Lexer** (`lexer.dfy`). It models the four-state machine that turns tokens
  into `Attribute(cmd, key, val)` and `Command(cmd)` events, and `parse_data`,
  which drives the machine over the tokens of one `get_tokens` call.
- **Output** (`output.dfy`). It models the 128-byte output FIFO, `peek`,
  `flush` and `write_str`, against a non-blocking byte writer.

There are two reference models.

- **UTF-8** (`utf8.dfy`). This is the bit layout of section 3 of RFC 3629,
  which the decoder is proved to invert.
- **Line format** (`lines.dfy`, `session.dfy`). A line is a command, then
  `key=value` pairs each preceded by a space, then LF, CR or CRLF. Tokenizing
  and lexing such lines is proved to raise one `Attribute` per pair and then
  one `Command`, line after line.

`scenarios.dfy` restates the two parser tests of `src/tests.rs`, `test1`
and `test_partial`, as lemmas that hold for the model. The first is one line
parsed in one call. The second is a line delivered in two chunks. The third
test, `test_macro`, exercises the `lightcli!` macro, which is left out.

## Modelling choices

- Rust's `nb::Result` becomes `Nb.Result`, which has one extra outcome,
  `Panic`. The source calls `unwrap()` in places that can fail, and `Panic`
  stands for that abort:
  - a multi-byte character whose bytes have not all arrived;
  - a decoded value that is not a Unicode scalar value;
  - a byte arriving when the input FIFO is full.
- Ring buffers are sequences, with the front at index 0. The capacities 64 and
  128 are taken from the declared types. The string capacity `SLEN` is the
  parameter `slen`, counted in UTF-8 bytes as `heapless::String` counts it.
- The `u32` accumulator of `get_amount` is truncated explicitly at each shift
  (`Tokenizer.Absorb`).
- Callbacks become returned sequences of tokens and events. The lexer never
  touches the tokenizer, so running it over the collected tokens of one call
  is the same as feeding it each token as it is emitted.
- The serial reader and writer are finite scripts of replies. Once a script
  is used up it answers `WouldBlock`, as the test device of `src/tests.rs`
  does.
- `write_str` spins for ever when the queue is full and the writer never takes
  a byte. The model stops there with the outcome `Stuck`.

The code is followed where a reader might expect something else:

- A key still waiting for its value at a line end raises no `Attribute`
  (`Scenarios.DroppedKey`).
- A split multi-byte character aborts instead of waiting
  (`TokenizerLemmas.SplitCharacterPanics`). Chunk invariance therefore holds
  only for splits at character boundaries.
- A multi-byte sequence whose last byte is ASCII decodes to that last byte.
  Each ASCII byte resets the accumulator, so `C3 41` reads as `A`. The lead
  byte is dropped silently and `InvalidUTF8` is not raised
  (`TokenizerLemmas.GetCharAsciiLast`, `TokenizerLemmas.DroppedLead`).
- The lexer's state is kept after a failed `get_tokens`. Tokens emitted
  before the failure have already moved it.

## Model

| member | source | states |
|---|---|---|
| RingBuffer.Enqueue | src/output.rs:18 | a full queue refuses the item and is left as it was; otherwise the item goes to the back and the capacity is respected |
| Tokenizer.Absorb | src/tokenizer.rs:52-62 | the accumulator stays a `u32` after every byte; a continuation byte shifts it left by 6 and adds its low 6 bits, a 2-, 3- or 4-byte lead shifts it by 5, 4 or 3 and adds its payload bits, all truncated to 32 bits; any other byte (ASCII or 0xF8 and above) replaces it |
| Tokenizer.GetAmount | src/tokenizer.rs:40-66 | `InvalidCount` exactly when count > 4; `WouldBlock` exactly when fewer than count bytes are buffered, with the buffer unchanged; otherwise exactly count bytes leave the front; with count at most 4 and enough bytes buffered, the result is a decoded character or an abort, never `WouldBlock` or an error |
| Tokenizer.Unwrap | src/tokenizer.rs:75-79 | the `unwrap()` of `get_char` passes a success through unchanged; any other result aborts and leaves the remaining buffer as it was |
| Tokenizer.GetChar | src/tokenizer.rs:68-86 | `WouldBlock` iff the buffer is empty; `InvalidUTF8` iff the front byte is a continuation byte, which stays in place; a byte below 0x80 or from 0xF8 up is dequeued as the character with that code; otherwise only a front part of the buffer is consumed |
| Tokenizer.TextSendVal | src/tokenizer.rs:100-106 | flushing the pending run before a delimiter token spells the run followed by the delimiter |
| Tokenizer.Next | src/tokenizer.rs:93-133 | a pass that goes on consumes at least one byte from the front and leaves the pending run empty whenever it emits tokens; a pass that stops never reports `Ok`, and reports `WouldBlock` iff the buffer was empty; `Overflow` is reported exactly when a non-delimiter character is read whose UTF-8 bytes would take the pending run past the string capacity, and then the pending run is unchanged but the character is gone |
| Tokenizer.NextConserves | src/tokenizer.rs:100-131 | one pass loses no text: the tokens it emits followed by the new pending run are the old pending run followed by the character read |
| Tokenizer.NextWellFormed | src/tokenizer.rs:100-131 | one pass keeps the pending run delimiter-free and within the string capacity, and emits only well-formed tokens |
| Tokenizer.GetTokens | src/tokenizer.rs:88-136 | `get_tokens` never returns `Ok`; when it returns `WouldBlock` the buffer is drained; it only ever consumes bytes from the front |
| Tokenizer.GetTokensWellFormed | src/tokenizer.rs:100-131 | no emitted `Value` is empty, holds a delimiter or exceeds the string capacity, and each one is followed by the delimiter token that ended it |
| Tokenizer.Arrived | src/tokenizer.rs:139-145 | the bytes `fill` reads are the source's replies up to the first reply that is not a byte: each one is the byte of the reply at its position |
| Tokenizer.Fill | src/tokenizer.rs:138-147 | aborts iff the arriving bytes overflow the 64-byte buffer; otherwise they are enqueued in arrival order; `Ok` iff the source ran out or said `WouldBlock`; a source error is returned unchanged; the pending run is untouched |
| TokenizerLemmas.GetCharDispatch | src/tokenizer.rs:74-79 | the shift tests of `get_char` pick the sequence length that RFC 3629 assigns to the leading byte |
| TokenizerLemmas.AccumulateAsciiLast | src/tokenizer.rs:49-63 | however the earlier bytes were classified, an ASCII last byte leaves the accumulator equal to that byte |
| TokenizerLemmas.GetCharAsciiLast | src/tokenizer.rs:68-83 | a sequence whose lead promises its length but whose last byte is ASCII is consumed whole and read as that ASCII character, with no `InvalidUTF8` |
| TokenizerLemmas.DroppedLead | src/tokenizer.rs:52-61 | the bytes `C3 41` are read as `A` |
| TokenizerLemmas.DecodeTwo | src/tokenizer.rs:47-63 | the accumulator loop decodes every two-byte RFC 3629 pattern to its value |
| TokenizerLemmas.DecodeThree | src/tokenizer.rs:47-63 | the accumulator loop decodes every three-byte RFC 3629 pattern to its value |
| TokenizerLemmas.DecodeFour | src/tokenizer.rs:47-63 | the accumulator loop decodes every four-byte RFC 3629 pattern to its value |
| TokenizerLemmas.GetCharPattern | src/tokenizer.rs:40-86 | the RFC 3629 bytes of any value below 2^21 are consumed exactly; the result is that character for a scalar value, and an abort for a surrogate or a value above U+10FFFF |
| TokenizerLemmas.GetCharEncode | src/tokenizer.rs:68-86 | round trip: the UTF-8 encoding of any character decodes to that character and consumes exactly its bytes |
| TokenizerLemmas.ShortSequencePanics | src/tokenizer.rs:44-45 | a leading byte whose sequence has not fully arrived makes `get_char` abort, because it unwraps `WouldBlock` |
| TokenizerLemmas.SplitCharacterPanics | src/tokenizer.rs:68-79 | any proper prefix of a multi-byte character's encoding makes `get_char` abort |
| TokenizerLemmas.GetCharAppend | src/tokenizer.rs:68-86 | a character read successfully does not depend on the bytes buffered after it |
| TokenizerLemmas.NextAppend | src/tokenizer.rs:92-133 | a pass of the loop that goes on does not depend on the bytes buffered after the character it reads |
| TokenizerLemmas.GetTokensEmpty | src/tokenizer.rs:92-98 | on an empty buffer `get_tokens` returns `WouldBlock` at once, emits nothing and keeps the pending run |
| TokenizerLemmas.GetTokensSplit | src/tokenizer.rs:88-136 | chunk invariance: when a call drains bytes a, a second call over bytes b emits exactly what one call over a + b would emit, and ends in the same state, because the pending run carries across |
| TokenizerLemmas.GetTokensAscii | src/tokenizer.rs:82-131 | on ASCII input `get_tokens` neither aborts nor reports a decoding error; it ends in `WouldBlock` or `Overflow` |
| TokenizerLemmas.GetTokensLossless | src/tokenizer.rs:88-136 | on the UTF-8 encoding of a text, the buffer is drained, and the tokens followed by the pending run spell the old pending run followed by the text |
| TokenizerLemmas.GetTokensWord | src/tokenizer.rs:125-131 | a delimiter-free word that fits is gathered into the pending run and emits nothing |
| TokenizerLemmas.OverflowStep | src/tokenizer.rs:125-131 | a non-delimiter character that does not fit the capacity left stops `get_tokens` with `Overflow` at once, consuming the character, emitting nothing and keeping the pending run |
| TokenizerLemmas.GetTokensOverflow | src/tokenizer.rs:88-131 | a word that fits followed by a character that does not: the word joins the pending run, nothing is emitted, and `get_tokens` returns `Overflow` with the bytes after that character still buffered |
| TokenizerLemmas.GetTokensDelimiter | src/tokenizer.rs:100-124 | a delimiter emits the pending run as a `Value` only when it is non-empty, then its own token, and empties the run |
| TokenizerLemmas.FillScript | src/tokenizer.rs:138-147 | filling from a device holding some bytes enqueues all of them when they fit, and aborts when they do not |
| Lexer.New | src/lexer.rs:28-34 | a new lexer is in `NewCommand` with an empty command and key |
| Lexer.Step | src/lexer.rs:38-91 | at most one event per token; a `Command` exactly for CR and for LF not after CR; an `Attribute` exactly for a value or space in state `Value`; every event names the current command; `Equals` changes nothing, and so does `Space` anywhere but in state `Value`; LF always ends in `NewCommand`, CR always in a clean `NewCommandCR`; terminators lead to a line start, and only they do |
| Lexer.Lex | src/lexer.rs:36-92 | the machine over a token sequence never raises more events than tokens, and keeps a clean line start clean |
| Lexer.LexAppend | src/lexer.rs:21-25 | the state persists between token runs: lexing two runs one after the other is lexing their concatenation |
| Lexer.CrLf | src/lexer.rs:40-53 | CR then LF raises exactly one `Command`, from any state, and ends in `NewCommand` with nothing carried over |
| Lexer.LexFits | src/lexer.rs:54-67 | the command and key are copies of tokens, so they stay within the string capacity whenever the tokens do |
| Lexer.ParseData | src/lexer.rs:36-92 | `parse_data` never returns `Ok`; its result and tokenizer state are those of `get_tokens`, unchanged; a clean line start stays clean |
| Lines.TokenizeSegments | src/tokenizer.rs:88-136 | the encoding of well-formed delimited words tokenizes to those words and delimiters, drains the buffer and leaves no pending run |
| Lines.TokenizeUnfinished | src/tokenizer.rs:88-136 | text that stops in the middle of a word yields the tokens before it, and keeps the word as the pending run |
| Lines.LexPair | src/lexer.rs:54-79 | `key=value` followed by a space raises the pair's `Attribute`; followed by a terminator it raises the `Attribute` and then the `Command` |
| Lines.LexPairs | src/lexer.rs:54-79 | the pairs of a line raise one `Attribute` each, in order, then the terminator's `Command` |
| Lines.LexHead | src/lexer.rs:40-63 | a command word read from a line start becomes the current command, and the machine waits for a key; with no pairs, the terminator after it raises its `Command` |
| Lines.LexTail | src/lexer.rs:40-47 | the LF of a CRLF raises nothing and ends the line in `NewCommand` |
| Lines.LexLine | src/lexer.rs:36-92 | a well-formed line lexed from a line start raises one `Attribute` per pair, in order, then exactly one `Command`, and returns to a clean line start |
| Session.ParseDataSplit | src/lexer.rs:36-92 | chunk invariance of `parse_data`: when a call drains a, a second call over b raises the same events in the same order, and ends in the same states, as one call over a + b |
| Session.ParseDataChunks | src/lexer.rs:36-92 | two known `parse_data` results, the second over the bytes that follow, compose into one call over all the bytes |
| Session.LexLines | src/lexer.rs:36-92 | the tokens of several well-formed lines raise each line's events in turn |
| Session.ParseLines | src/lexer.rs:36-92 | a session of well-formed lines handed to one `parse_data` call raises every line's events, drains the buffer, leaves no pending text and returns `WouldBlock` |
| Output.Peek | src/output.rs:46-51 | the front byte, or `None` exactly when the queue is empty |
| Output.Flush | src/output.rs:63-82 | bytes written followed by the bytes left are the old queue (FIFO, nothing lost); `Ok` iff the queue ends empty; an empty queue does not call the writer; at most one byte per reply read |
| Output.FlushReplies | src/output.rs:66-81 | each byte written was taken by a reply, the replies read took exactly the bytes written, and the flush stops at the first reply that did not take its byte, returning that `WouldBlock` or error |
| Output.FlushAccepting | src/output.rs:63-82 | a writer that takes every byte gets the whole queue, in order, one reply per byte, and the result is `Ok` |
| Output.FlushIdempotent | src/output.rs:63-68 | a flush right after one that returned `Ok` writes nothing and does not call the writer |
| Output.FlushNoFault | src/output.rs:66-81 | a flush that does not return an error read no writer error |
| Output.RetryFlush | src/output.rs:21-24 | a flush on a full queue inside `write_str` reads at least one reply, keeps every byte in order, and fails exactly when it read a writer error, which is then the last reply read |
| Output.PushByte | src/output.rs:17-26 | the byte is queued unless a writer error gives up first or the writer stays blocked on a full queue; the queue stays within 128 bytes; bytes taken by the writer followed by the queue are the old queue with the byte appended; `fmt::Error` exactly when a writer error was read, and that error is the last reply read (the call gives up at once); a byte that fits the queue is queued with `Done` and no writer call |
| Output.WriteStr | src/output.rs:15-29 | bytes taken by the writer followed by the final queue are always a prefix of the old queue followed by the bytes of s, and all of it on success; `fmt::Error` exactly when a writer error was read, and then it is the last reply read; the queue never exceeds 128 bytes; a string whose bytes fit the queue is queued with `Done` and no writer call |
| Output.PushAll | src/output.rs:16-28 | the loop over the bytes of the string keeps them in order behind the old queue, gives up exactly on a writer error, and makes no writer call while everything fits |
| Scenarios.ParseFilled | src/lib.rs:40-47 | well-formed lines written to the test device, filled and parsed from a fresh state: `fill` succeeds, and `parse_data` raises every line's events and consumes every byte |
| Scenarios.Test1 | src/tests.rs:50-81 | `HELLO TE❤ST=50\n` raises `Attribute("HELLO", "TE❤ST", "50")` and then exactly one `Command("HELLO")` |
| Scenarios.PartialFirst | src/tests.rs:84-114 | `HELLO TE❤ST=50 Five=A` raises only the first pair's `Attribute` and no `Command`; the key `Five` and the text `A` wait |
| Scenarios.PartialSecond | src/tests.rs:116-137 | the later `\n` raises `Attribute("HELLO", "Five", "A")` and then `Command("HELLO")` |
| Scenarios.PartialWhole | src/tests.rs:84-138 | the two halves together raise exactly what one call over the whole line raises |
| Scenarios.DroppedKey | src/lexer.rs:40-53 | `cmd key=` then a line end raises only `Command(cmd)`: the pending key is lost |
| Scenarios.EmptyValue | src/lexer.rs:74-79 | `cmd key=` then a space raises `Attribute(cmd, key, "")` before the `Command` |

## Left out

- `src/macros.rs`: the `lightcli!` macro only dispatches on the events, and has no logic of its own.
- `src/lib.rs` and `src/input.rs`: they only forward to `fill` and `parse_data`. `StringType` is unused.
- `examples/stm32.rs`: peripheral set-up and a polling loop, which is platform I/O.
- `Tokenizer::new` and `LightCliOutput::new`: they build empty buffers, written `State([], [])` and `[]` here.
- The test device of `src/tests.rs`: a `write_str` on it is modelled as a script holding the string's bytes (`Scenarios.Filled`). Its own 512-byte buffer and `String<U128>` copy are not modelled.
- Callbacks, closures and lifetimes: events and tokens are returned as sequences.
- The exact capacity semantics of the `heapless` version in use: the capacities are 64 and 128 as declared.
- `write_str` on a writer that blocks for ever: the source spins, and the model stops with `Stuck` once the writer's script is used up.
- TokenizerLemmas.GetTokensLossless: requires the whole text, with the pending run, to fit the string capacity. Lines.TokenizeSegments covers text whose runs each fit.
- TokenizerLemmas.GetTokensSplit and Session.ParseDataSplit: assume the first call drained its bytes. A split inside a multi-byte character aborts instead, which TokenizerLemmas.SplitCharacterPanics states.

=== FILE: core.dfy ===
/** The few primitive types of Rust's `core` library that light-cli's input path uses. */
module Core {
  /** A Rust `u8`. */
  type u8 = b: int | 0 <= b < 0x100

  /** Rust's `Option<T>`. */
  datatype Option<+T> = None | Some(value: T)
}

/**
 * The outcome of a non-blocking call: `nb::Result<T, E>` of the embedded-hal
 * ecosystem, whose error is either `WouldBlock` ("retry later") or
 * `Other(e)`. `Panic` is added for the places where the source calls
 * `unwrap()` on a result it assumes cannot fail: when it does fail, the call
 * aborts instead of returning, and `Panic` stands for that abort.
 */
module Nb {
  datatype Result<+T, +E> = Ok(value: T) | WouldBlock | Other(error: E) | Panic
}

/**
 * `heapless::RingBuffer<T, N>` seen as an immutable FIFO: index 0 is the
 * front (the next item `dequeue` returns), the last index the most recently
 * enqueued item. Its capacity is fixed when it is declared.
 */
module RingBuffer {
  import opened Core

  /** `enqueue`: appends at the back, or refuses when the buffer is full, never overwriting. */
  function Enqueue<T>(q: seq<T>, x: T, cap: nat): (r: Option<seq<T>>)
    ensures r.None? <==> |q| >= cap
    ensures r.Some? ==> r.value == q + [x] && |r.value| <= cap
  {
    if |q| < cap then Some(q + [x]) else None
  }
}

=== FILE: lexer.dfy ===
/**
 * The lexer of src/lexer.rs: a four-state machine that turns the tokenizer's
 * tokens into callback events. `parse_data` runs `get_tokens` and feeds each
 * token to the machine as it is emitted; here the tokens are collected first
 * and the machine is a fold over them, which is the same thing because the
 * machine never touches the tokenizer. Callbacks become a returned sequence
 * of events.
 */
module Lexer {
  import opened Nb
  import Tokenizer
  import Utf8

  datatype MachineState = NewCommand | NewCommandCR | Key | Value

  datatype CallbackCommand = Attribute(cmd: string, key: string, val: string) | Command(cmd: string)

  /** The fields of the `Lexer` struct: the command and key read so far on this line, and the machine state. */
  datatype LexerState = LexerState(currentCmd: string, currentKey: string, state: MachineState)

  /** Between lines: no command has been read yet. */
  predicate AtLineStart(lx: LexerState) {
    lx.state == NewCommand || lx.state == NewCommandCR
  }

  /** A line start carries nothing over from the previous line. */
  predicate CleanAtLineStart(lx: LexerState) {
    AtLineStart(lx) ==> lx.currentCmd == [] && lx.currentKey == []
  }

  /** `Lexer::new`. */
  function New(): (lx: LexerState)
    ensures CleanAtLineStart(lx) && lx.state == NewCommand
    ensures lx.currentCmd == [] && lx.currentKey == []
  {
    LexerState([], [], NewCommand)
  }

  /** What the machine did with some tokens: its new state and the events it raised, in order. */
  datatype Transition = Transition(lx: LexerState, events: seq<CallbackCommand>)

  /**
   * The closure `parse_data` hands to `get_tokens`: one token in, at most one
   * event out. Every event names the command being read. A line terminator
   * raises `Command` (a line feed right after a carriage return does not),
   * and a value, or a space after a key, raises `Attribute` only when a key
   * is waiting for it. An `Equals` does nothing at all, and neither does a
   * space anywhere but after a key. A line feed always ends in `NewCommand`,
   * a carriage return always in a clean `NewCommandCR`.
   */
  function Step(lx: LexerState, tok: Tokenizer.Token): (r: Transition)
    ensures |r.events| <= 1
    ensures (r.events != [] && r.events[0].Command?)
        <==> tok.CarriageReturn? || (tok.NewLine? && lx.state != NewCommandCR)
    ensures (r.events != [] && r.events[0].Attribute?)
        <==> lx.state == MachineState.Value && (tok.Value? || tok.Space?)
    ensures forall e :: e in r.events ==> e.cmd == lx.currentCmd
    ensures tok.Equals? ==> r == Transition(lx, [])
    ensures tok.Space? && lx.state != MachineState.Value ==> r == Transition(lx, [])
    ensures tok.NewLine? ==> r.lx.state == NewCommand
    ensures tok.CarriageReturn? ==> r.lx == LexerState([], [], NewCommandCR)
    ensures CleanAtLineStart(lx) ==> CleanAtLineStart(r.lx)
    ensures tok.NewLine? || tok.CarriageReturn? ==> AtLineStart(r.lx)
    ensures AtLineStart(r.lx) && !AtLineStart(lx) ==> tok.NewLine? || tok.CarriageReturn?
  {
    match tok
    case NewLine =>
      if lx.state != NewCommandCR then
        Transition(LexerState([], [], NewCommand), [Command(lx.currentCmd)])
      else
        Transition(lx.(state := NewCommand), [])
    case CarriageReturn =>
      Transition(LexerState([], [], NewCommandCR), [Command(lx.currentCmd)])
    case Value(s) =>
      (match lx.state
       case NewCommandCR => Transition(lx.(currentCmd := s, state := Key), [])
       case NewCommand => Transition(lx.(currentCmd := s, state := Key), [])
       case Key => Transition(lx.(currentKey := s, state := MachineState.Value), [])
       case Value => Transition(lx.(state := Key), [Attribute(lx.currentCmd, lx.currentKey, s)]))
    case Space =>
      if lx.state == MachineState.Value then
        Transition(lx.(state := Key), [Attribute(lx.currentCmd, lx.currentKey, [])])
      else
        Transition(lx, [])
    case Equals => Transition(lx, [])
  }

  /** The machine run over the tokens one `get_tokens` call emits, in order. */
  function Lex(lx: LexerState, toks: seq<Tokenizer.Token>): (r: Transition)
    ensures CleanAtLineStart(lx) ==> CleanAtLineStart(r.lx)
    ensures |r.events| <= |toks|
    decreases |toks|
  {
    if toks == [] then Transition(lx, [])
    else
      var t := Step(lx, toks[0]);
      var u := Lex(t.lx, toks[1..]);
      Transition(u.lx, t.events + u.events)
  }

  /** Lexing two token runs one after the other is lexing their concatenation. */
  lemma {:induction false} LexAppend(lx: LexerState, a: seq<Tokenizer.Token>, b: seq<Tokenizer.Token>)
    ensures Lex(lx, a + b) == Transition(Lex(Lex(lx, a).lx, b).lx, Lex(lx, a).events + Lex(Lex(lx, a).lx, b).events)
    decreases |a|
  {
    if a == [] {
      assert a + b == b;
    } else {
      var t := Step(lx, a[0]);
      assert (a + b)[0] == a[0];
      assert (a + b)[1..] == a[1..] + b;
      LexAppend(t.lx, a[1..], b);
      var m := Lex(t.lx, a[1..]).lx;
      assert t.events + (Lex(t.lx, a[1..]).events + Lex(m, b).events)
          == (t.events + Lex(t.lx, a[1..]).events) + Lex(m, b).events;
    }
  }

  /**
   * A carriage return and a line feed end a line once: the pair raises one
   * `Command`, and the machine is back in `NewCommand` with nothing carried
   * over, whatever state it was in.
   */
  lemma {:induction false} CrLf(lx: LexerState)
    ensures Lex(lx, [Tokenizer.CarriageReturn, Tokenizer.NewLine])
         == Transition(LexerState([], [], NewCommand), [Command(lx.currentCmd)])
  {
    var cr := Step(lx, Tokenizer.CarriageReturn);
    assert [Tokenizer.CarriageReturn, Tokenizer.NewLine][1..] == [Tokenizer.NewLine];
    assert Lex(cr.lx, [Tokenizer.NewLine]) == Transition(LexerState([], [], NewCommand), []);
  }

  /**
   * The command and key are always copies of `Value` tokens, so when every
   * token fits the string capacity `slen`, so do they, and the
   * `String::from` copies in the machine never abort.
   */
  predicate Fits(lx: LexerState, slen: nat) {
    Utf8.ByteLen(lx.currentCmd) <= slen && Utf8.ByteLen(lx.currentKey) <= slen
  }

  lemma {:induction false} LexFits(lx: LexerState, toks: seq<Tokenizer.Token>, slen: nat)
    requires Fits(lx, slen) && Tokenizer.WellFormed(toks, slen)
    ensures Fits(Lex(lx, toks).lx, slen)
    decreases |toks|
  {
    if toks != [] {
      var t := Step(lx, toks[0]);
      assert Tokenizer.WellFormed(toks[1..], slen) by {
        forall i | 0 <= i < |toks[1..]| && toks[1..][i].Value?
          ensures toks[1..][i].text != [] && Utf8.ByteLen(toks[1..][i].text) <= slen
          ensures Tokenizer.DelimiterFree(toks[1..][i].text)
          ensures i + 1 < |toks[1..]| && !toks[1..][i + 1].Value?
        {
          assert toks[1..][i] == toks[i + 1];
          assert toks[i + 1].Value?;
        }
      }
      if toks[0].Value? {
        assert Utf8.ByteLen(toks[0].text) <= slen;
      }
      LexFits(t.lx, toks[1..], slen);
    }
  }

  /** What one `parse_data` call did. */
  datatype Parsed = Parsed(lx: LexerState, tk: Tokenizer.State, events: seq<CallbackCommand>, res: Result<(), Tokenizer.Error>)

  /**
   * `parse_data`: the machine runs over every token `get_tokens` emits; its
   * state is kept between calls, even when `get_tokens` fails. The result
   * is the tokenizer's, unchanged: the lexer adds no error of its own, and
   * the call never returns `Ok`.
   */
  function ParseData(lx: LexerState, tk: Tokenizer.State, slen: nat): (r: Parsed)
    ensures !r.res.Ok?
    ensures r.res == Tokenizer.GetTokens(tk, slen).res && r.tk == Tokenizer.GetTokens(tk, slen).tk
    ensures CleanAtLineStart(lx) ==> CleanAtLineStart(r.lx)
  {
    var run := Tokenizer.GetTokens(tk, slen);
    var t := Lex(lx, run.tokens);
    Parsed(t.lx, run.tk, t.events, run.res)
  }
}

=== FILE: lines.dfy ===
/**
 * The command-line format light-cli's input path reads, as a reference for it: a line
 * is a command, then `key=value` pairs each preceded by a space, then a line
 * terminator. Every word is non-empty, holds no delimiter and fits the
 * string capacity. Lexing the tokens of such a line raises one `Attribute`
 * per pair, in order, and then exactly one `Command`.
 */
module Lines {
  import opened Core
  import opened Nb
  import opened Tokenizer
  import TokenizerLemmas
  import Utf8
  import Lexer

  /** A run of non-delimiter characters followed by the delimiter that ends it. */
  datatype Segment = Segment(word: string, delim: char)

  /** Words that the tokenizer keeps whole: free of delimiters and within `slen` bytes. */
  predicate SegmentsOk(segs: seq<Segment>, slen: nat) {
    forall i :: 0 <= i < |segs| ==>
      DelimiterFree(segs[i].word) && Utf8.ByteLen(segs[i].word) <= slen && IsDelimiter(segs[i].delim)
  }

  function SegText(segs: seq<Segment>): string
    decreases |segs|
  {
    if segs == [] then [] else (segs[0].word + [segs[0].delim]) + SegText(segs[1..])
  }

  /** The tokens a segment stands for: its word, when there is one, then its delimiter. */
  function SegTokens(segs: seq<Segment>): seq<Token>
    requires forall i :: 0 <= i < |segs| ==> IsDelimiter(segs[i].delim)
    decreases |segs|
  {
    if segs == [] then [] else (SendVal(segs[0].word) + [DelimiterToken(segs[0].delim)]) + SegTokens(segs[1..])
  }

  lemma {:induction false} SegmentsAppend(a: seq<Segment>, b: seq<Segment>, slen: nat)
    requires SegmentsOk(a, slen) && SegmentsOk(b, slen)
    ensures SegmentsOk(a + b, slen)
    ensures SegText(a + b) == SegText(a) + SegText(b)
    ensures SegTokens(a + b) == SegTokens(a) + SegTokens(b)
    decreases |a|
  {
    if a == [] {
      assert a + b == b;
    } else {
      assert (a + b)[0] == a[0];
      assert (a + b)[1..] == a[1..] + b;
      SegmentsOkTail(a, slen);
      SegmentsAppend(a[1..], b, slen);
      var h, k := a[0].word + [a[0].delim], SendVal(a[0].word) + [DelimiterToken(a[0].delim)];
      assert h + (SegText(a[1..]) + SegText(b)) == (h + SegText(a[1..])) + SegText(b);
      assert k + (SegTokens(a[1..]) + SegTokens(b)) == (k + SegTokens(a[1..])) + SegTokens(b);
    }
  }

  lemma {:induction false} SegmentsOkTail(a: seq<Segment>, slen: nat)
    requires a != [] && SegmentsOk(a, slen)
    ensures SegmentsOk(a[1..], slen)
  {
    forall i | 0 <= i < |a[1..]|
      ensures DelimiterFree(a[1..][i].word) && Utf8.ByteLen(a[1..][i].word) <= slen && IsDelimiter(a[1..][i].delim)
    {
      assert a[1..][i] == a[i + 1];
    }
  }

  /** One segment, from an empty pending run: the word is gathered, then flushed by the delimiter. */
  lemma {:induction false} TokenizeSegment(w: string, d: char, slen: nat)
    requires DelimiterFree(w) && Utf8.ByteLen(w) <= slen && IsDelimiter(d)
    ensures GetTokens(State(Utf8.EncodeString(w + [d]), []), slen)
         == Run(State([], []), SendVal(w) + [DelimiterToken(d)], WouldBlock)
  {
    var r1 := Run(State([], w), [], WouldBlock);
    var r2 := Run(State([], []), SendVal(w) + [DelimiterToken(d)], WouldBlock);
    assert Then(r1, r2) == r2 by { assert [] + r2.tokens == r2.tokens; }
    Utf8.EncodeStringAppend(w, [d]);
    GatherWord(w, slen);
    TokenizerLemmas.GetTokensDelimiter(d, w, slen);
    SplitKnown(Utf8.EncodeString(w), Utf8.EncodeString([d]), [], r1, r2, slen);
  }

  /** A word read with no pending run becomes the pending run. */
  lemma {:induction false} GatherWord(w: string, slen: nat)
    requires DelimiterFree(w) && Utf8.ByteLen(w) <= slen
    ensures GetTokens(State(Utf8.EncodeString(w), []), slen) == Run(State([], w), [], WouldBlock)
  {
    assert [] + w == w;
    TokenizerLemmas.GetTokensWord(w, [], slen);
  }

  /** `GetTokensSplit` with both halves already known. */
  lemma {:induction false} SplitKnown(a: seq<u8>, b: seq<u8>, ns: string, r1: Run, r2: Run, slen: nat)
    requires GetTokens(State(a, ns), slen) == r1 && r1.res.WouldBlock?
    requires GetTokens(State(b, r1.tk.nextstr), slen) == r2
    ensures GetTokens(State(a + b, ns), slen) == Then(r1, r2)
  {
    TokenizerLemmas.GetTokensSplit(a, b, ns, slen);
  }

  /**
   * The tokenizer turns the text of well-formed segments into their tokens,
   * drains the buffer and leaves no pending run.
   */
  lemma {:induction false} TokenizeSegments(segs: seq<Segment>, slen: nat)
    requires SegmentsOk(segs, slen)
    ensures GetTokens(State(Utf8.EncodeString(SegText(segs)), []), slen)
         == Run(State([], []), SegTokens(segs), WouldBlock)
    decreases |segs|
  {
    if segs == [] {
      TokenizerLemmas.GetTokensEmpty([], slen);
    } else {
      var g := segs[0];
      var head := g.word + [g.delim];
      assert SegmentsOk(segs[1..], slen) by {
        forall i | 0 <= i < |segs[1..]|
          ensures DelimiterFree(segs[1..][i].word) && Utf8.ByteLen(segs[1..][i].word) <= slen && IsDelimiter(segs[1..][i].delim)
        {
          assert segs[1..][i] == segs[i + 1];
        }
      }
      TokenizeSegments(segs[1..], slen);
      TokenizeSegment(g.word, g.delim, slen);
      SegmentsStep(head, SegText(segs[1..]), SendVal(g.word) + [DelimiterToken(g.delim)], SegTokens(segs[1..]), slen);
    }
  }

  /**
   * Text that stops in the middle of a word: the segments before it are
   * tokenized, and the word is kept as the pending run, to be completed by
   * the bytes of a later call.
   */
  lemma {:induction false} TokenizeUnfinished(segs: seq<Segment>, w: string, slen: nat)
    requires SegmentsOk(segs, slen) && DelimiterFree(w) && Utf8.ByteLen(w) <= slen
    ensures GetTokens(State(Utf8.EncodeString(SegText(segs) + w), []), slen)
         == Run(State([], w), SegTokens(segs), WouldBlock)
  {
    var r1 := Run(State([], []), SegTokens(segs), WouldBlock);
    var r2 := Run(State([], w), [], WouldBlock);
    assert Then(r1, r2) == Run(State([], w), SegTokens(segs), WouldBlock) by {
      assert SegTokens(segs) + [] == SegTokens(segs);
    }
    TokenizeSegments(segs, slen);
    GatherWord(w, slen);
    Utf8.EncodeStringAppend(SegText(segs), w);
    SplitKnown(Utf8.EncodeString(SegText(segs)), Utf8.EncodeString(w), [], r1, r2, slen);
  }

  /** Two drained texts, one after the other, drain together. */
  lemma {:induction false} SegmentsStep(s: string, t: string, ts: seq<Token>, tt: seq<Token>, slen: nat)
    requires GetTokens(State(Utf8.EncodeString(s), []), slen) == Run(State([], []), ts, WouldBlock)
    requires GetTokens(State(Utf8.EncodeString(t), []), slen) == Run(State([], []), tt, WouldBlock)
    ensures GetTokens(State(Utf8.EncodeString(s + t), []), slen) == Run(State([], []), ts + tt, WouldBlock)
  {
    Utf8.EncodeStringAppend(s, t);
    SplitKnown(Utf8.EncodeString(s), Utf8.EncodeString(t), [], Run(State([], []), ts, WouldBlock), Run(State([], []), tt, WouldBlock), slen);
  }

  datatype Pair = Pair(key: string, val: string)

  datatype Terminator = LF | CR | CRLF

  datatype Line = Line(cmd: string, pairs: seq<Pair>, term: Terminator)

  /** A word the tokenizer delivers whole as one `Value`. */
  predicate WordOk(w: string, slen: nat) {
    w != [] && DelimiterFree(w) && Utf8.ByteLen(w) <= slen
  }

  predicate LineOk(l: Line, slen: nat) {
    && WordOk(l.cmd, slen)
    && forall i :: 0 <= i < |l.pairs| ==> WordOk(l.pairs[i].key, slen) && WordOk(l.pairs[i].val, slen)
  }

  /** The first character of a terminator. */
  function TermChar(t: Terminator): char {
    if t.LF? then '\n' else '\r'
  }

  /** `=value` for every pair, then a space before the next key or the terminator after the last value. */
  function PairSegments(ps: seq<Pair>, t: char): seq<Segment>
    decreases |ps|
  {
    if ps == [] then []
    else [Segment(ps[0].key, '='), Segment(ps[0].val, if |ps| == 1 then t else ' ')] + PairSegments(ps[1..], t)
  }

  /** The command, with the delimiter that follows it. */
  function HeadSegment(l: Line): Segment {
    Segment(l.cmd, if l.pairs == [] then TermChar(l.term) else ' ')
  }

  /** The line up to and including the first character of its terminator. */
  function BodySegments(l: Line): seq<Segment> {
    [HeadSegment(l)] + PairSegments(l.pairs, TermChar(l.term))
  }

  /** The line feed of a CRLF terminator, after its carriage return. */
  function TailSegments(l: Line): seq<Segment> {
    if l.term.CRLF? then [Segment([], '\n')] else []
  }

  function LineSegments(l: Line): seq<Segment> {
    BodySegments(l) + TailSegments(l)
  }

  /** The line as typed. */
  function LineText(l: Line): string {
    SegText(LineSegments(l))
  }

  function PairEvents(cmd: string, ps: seq<Pair>): seq<Lexer.CallbackCommand>
    decreases |ps|
  {
    if ps == [] then [] else [Lexer.Attribute(cmd, ps[0].key, ps[0].val)] + PairEvents(cmd, ps[1..])
  }

  /** The events a line raises: one `Attribute` per pair, in order, then one `Command`. */
  function LineEvents(l: Line): seq<Lexer.CallbackCommand> {
    PairEvents(l.cmd, l.pairs) + [Lexer.Command(l.cmd)]
  }

  /** The lexer between lines, after a terminator; a carriage return alone leaves it in `NewCommandCR`. */
  function LineEnd(l: Line): Lexer.LexerState {
    Lexer.LexerState([], [], if l.term.CR? then Lexer.NewCommandCR else Lexer.NewCommand)
  }

  lemma {:induction false} PairSegmentsOk(ps: seq<Pair>, t: char, slen: nat)
    requires forall i :: 0 <= i < |ps| ==> WordOk(ps[i].key, slen) && WordOk(ps[i].val, slen)
    requires t == '\n' || t == '\r'
    ensures SegmentsOk(PairSegments(ps, t), slen)
    decreases |ps|
  {
    if ps != [] {
      PairSegmentsOk(ps[1..], t, slen);
      var h := [Segment(ps[0].key, '='), Segment(ps[0].val, if |ps| == 1 then t else ' ')];
      assert SegmentsOk(h, slen);
      SegmentsAppend(h, PairSegments(ps[1..], t), slen);
    }
  }

  lemma {:induction false} BodySegmentsOk(l: Line, slen: nat)
    requires LineOk(l, slen)
    ensures SegmentsOk(BodySegments(l), slen)
  {
    PairSegmentsOk(l.pairs, TermChar(l.term), slen);
    assert SegmentsOk([HeadSegment(l)], slen);
    SegmentsAppend([HeadSegment(l)], PairSegments(l.pairs, TermChar(l.term)), slen);
  }

  lemma {:induction false} LineSegmentsOk(l: Line, slen: nat)
    requires LineOk(l, slen)
    ensures SegmentsOk(BodySegments(l), slen) && SegmentsOk(TailSegments(l), slen)
    ensures SegmentsOk(LineSegments(l), slen)
  {
    BodySegmentsOk(l, slen);
    assert SegmentsOk(TailSegments(l), slen);
    SegmentsAppend(BodySegments(l), TailSegments(l), slen);
  }

  /** The lexer after the last value of a line, at its terminator character t. */
  function TermState(t: char): Lexer.LexerState {
    Lexer.LexerState([], [], if t == '\n' then Lexer.NewCommand else Lexer.NewCommandCR)
  }

  /**
   * The pairs of a line, lexed with the command already read and the machine
   * waiting for a key: one `Attribute` per pair, then the terminator's `Command`.
   */
  lemma {:induction false} LexPairs(cmd: string, key: string, ps: seq<Pair>, t: char, slen: nat)
    requires ps != [] && (t == '\n' || t == '\r')
    requires forall i :: 0 <= i < |ps| ==> WordOk(ps[i].key, slen) && WordOk(ps[i].val, slen)
    requires SegmentsOk(PairSegments(ps, t), slen)
    ensures Lexer.Lex(Lexer.LexerState(cmd, key, Lexer.Key), SegTokens(PairSegments(ps, t)))
         == Lexer.Transition(TermState(t), PairEvents(cmd, ps) + [Lexer.Command(cmd)])
    decreases |ps|
  {
    PairsTail(ps, slen);
    PairSegmentsOk(ps[1..], t, slen);
    if |ps| == 1 {
      LexLastPair(cmd, key, ps, t, slen);
    } else {
      LexPairs(cmd, ps[0].key, ps[1..], t, slen);
      LexPairsCons(cmd, key, ps, t, slen);
    }
  }

  lemma {:induction false} PairsTail(ps: seq<Pair>, slen: nat)
    requires ps != [] && forall i :: 0 <= i < |ps| ==> WordOk(ps[i].key, slen) && WordOk(ps[i].val, slen)
    ensures WordOk(ps[0].key, slen) && WordOk(ps[0].val, slen)
    ensures forall i :: 0 <= i < |ps[1..]| ==> WordOk(ps[1..][i].key, slen) && WordOk(ps[1..][i].val, slen)
  {
    forall i | 0 <= i < |ps[1..]| ensures WordOk(ps[1..][i].key, slen) && WordOk(ps[1..][i].val, slen) {
      assert ps[1..][i] == ps[i + 1];
    }
  }

  /** The last pair of a line, with its terminator. */
  lemma {:induction false} LexLastPair(cmd: string, key: string, ps: seq<Pair>, t: char, slen: nat)
    requires |ps| == 1 && (t == '\n' || t == '\r')
    requires WordOk(ps[0].key, slen) && WordOk(ps[0].val, slen)
    requires SegmentsOk(PairSegments(ps, t), slen)
    ensures Lexer.Lex(Lexer.LexerState(cmd, key, Lexer.Key), SegTokens(PairSegments(ps, t)))
         == Lexer.Transition(TermState(t), PairEvents(cmd, ps) + [Lexer.Command(cmd)])
  {
    var p := ps[0];
    var h := [Segment(p.key, '='), Segment(p.val, t)];
    assert PairSegments(ps[1..], t) == [];
    PairTokens(p, t, [], slen);
    LexPair(cmd, key, p, t);
    assert SegTokens(h) + [] == SegTokens(h);
  }

  /** A pair followed by more pairs: its `Attribute` comes before theirs. */
  lemma {:induction false} LexPairsCons(cmd: string, key: string, ps: seq<Pair>, t: char, slen: nat)
    requires |ps| > 1 && (t == '\n' || t == '\r')
    requires WordOk(ps[0].key, slen) && WordOk(ps[0].val, slen)
    requires SegmentsOk(PairSegments(ps[1..], t), slen)
    requires Lexer.Lex(Lexer.LexerState(cmd, ps[0].key, Lexer.Key), SegTokens(PairSegments(ps[1..], t)))
          == Lexer.Transition(TermState(t), PairEvents(cmd, ps[1..]) + [Lexer.Command(cmd)])
    ensures Lexer.Lex(Lexer.LexerState(cmd, key, Lexer.Key), SegTokens(PairSegments(ps, t)))
         == Lexer.Transition(TermState(t), PairEvents(cmd, ps) + [Lexer.Command(cmd)])
  {
    var p := ps[0];
    var h := [Segment(p.key, '='), Segment(p.val, ' ')];
    var rest := PairSegments(ps[1..], t);
    var attr := Lexer.Attribute(cmd, p.key, p.val);
    PairTokens(p, ' ', rest, slen);
    LexPair(cmd, key, p, ' ');
    LexCompose(Lexer.LexerState(cmd, key, Lexer.Key), SegTokens(h), SegTokens(rest), Lexer.LexerState(cmd, p.key, Lexer.Key), [attr],
               TermState(t), PairEvents(cmd, ps[1..]) + [Lexer.Command(cmd)]);
    assert [attr] + (PairEvents(cmd, ps[1..]) + [Lexer.Command(cmd)]) == ([attr] + PairEvents(cmd, ps[1..])) + [Lexer.Command(cmd)];
  }

  /** Two token runs lexed one after the other, with what each does known. */
  lemma {:induction false} LexCompose(lx: Lexer.LexerState, a: seq<Token>, b: seq<Token>, mid: Lexer.LexerState,
                   e1: seq<Lexer.CallbackCommand>, fin: Lexer.LexerState, e2: seq<Lexer.CallbackCommand>)
    requires Lexer.Lex(lx, a) == Lexer.Transition(mid, e1) && Lexer.Lex(mid, b) == Lexer.Transition(fin, e2)
    ensures Lexer.Lex(lx, a + b) == Lexer.Transition(fin, e1 + e2)
  {
    Lexer.LexAppend(lx, a, b);
  }

  /** The tokens of one pair and the segments after it. */
  lemma {:induction false} PairTokens(p: Pair, d: char, rest: seq<Segment>, slen: nat)
    requires WordOk(p.key, slen) && WordOk(p.val, slen) && (d == ' ' || d == '\n' || d == '\r')
    requires SegmentsOk(rest, slen)
    ensures SegmentsOk([Segment(p.key, '='), Segment(p.val, d)] + rest, slen)
    ensures SegTokens([Segment(p.key, '='), Segment(p.val, d)]) == [Value(p.key), Equals, Value(p.val), DelimiterToken(d)]
    ensures SegTokens([Segment(p.key, '='), Segment(p.val, d)] + rest)
         == SegTokens([Segment(p.key, '='), Segment(p.val, d)]) + SegTokens(rest)
  {
    var h := [Segment(p.key, '='), Segment(p.val, d)];
    assert SegmentsOk(h, slen);
    SegmentsAppend(h, rest, slen);
  }

  /** One `key=value` followed by its delimiter d: a space keeps the line open, a terminator closes it. */
  lemma {:induction false} LexPair(cmd: string, key: string, p: Pair, d: char)
    requires p.key != [] && p.val != []
    requires d == ' ' || d == '\n' || d == '\r'
    ensures var r := Lexer.Lex(Lexer.LexerState(cmd, key, Lexer.Key), [Value(p.key), Equals, Value(p.val), DelimiterToken(d)]);
      if d == ' ' then r == Lexer.Transition(Lexer.LexerState(cmd, p.key, Lexer.Key), [Lexer.Attribute(cmd, p.key, p.val)])
      else r == Lexer.Transition(TermState(d), [Lexer.Attribute(cmd, p.key, p.val), Lexer.Command(cmd)])
  {
    var waiting := Lexer.LexerState(cmd, p.key, Lexer.Value);
    var open := Lexer.LexerState(cmd, p.key, Lexer.Key);
    var attr := Lexer.Attribute(cmd, p.key, p.val);
    var t4 := [DelimiterToken(d)];
    var t3 := [Value(p.val)] + t4;
    var t2 := [Equals] + t3;
    var t1 := [Value(p.key)] + t2;
    var end := if d == ' ' then Lexer.Transition(open, []) else Lexer.Transition(TermState(d), [Lexer.Command(cmd)]);
    LexDelimiter(open, d);
    assert t3[1..] == t4;
    assert Lexer.Lex(waiting, t3) == Lexer.Transition(end.lx, [attr] + end.events);
    assert t2[1..] == t3;
    assert Lexer.Lex(waiting, t2) == Lexer.Transition(end.lx, [attr] + end.events);
    assert t1[1..] == t2;
    assert Lexer.Lex(Lexer.LexerState(cmd, key, Lexer.Key), t1) == Lexer.Transition(end.lx, [attr] + end.events);
    assert t1 == [Value(p.key), Equals, Value(p.val), DelimiterToken(d)];
  }

  /** The command and the delimiter after it, lexed from a line start. */
  lemma {:induction false} LexHead(lx: Lexer.LexerState, l: Line)
    requires Lexer.AtLineStart(lx) && Lexer.CleanAtLineStart(lx) && l.cmd != []
    ensures Lexer.Lex(lx, SegTokens([HeadSegment(l)]))
         == if l.pairs == [] then Lexer.Transition(TermState(TermChar(l.term)), [Lexer.Command(l.cmd)])
            else Lexer.Transition(Lexer.LexerState(l.cmd, [], Lexer.Key), [])
  {
    var d := HeadSegment(l).delim;
    var toks := [Value(l.cmd), DelimiterToken(d)];
    assert SegTokens([HeadSegment(l)]) == toks;
    assert toks[1..] == [DelimiterToken(d)];
    var open := Lexer.LexerState(l.cmd, [], Lexer.Key);
    assert Lexer.Step(lx, Value(l.cmd)) == Lexer.Transition(open, []);
    var last := Lexer.Lex(open, [DelimiterToken(d)]);
    LexDelimiter(open, d);
    assert Lexer.Lex(lx, toks) == Lexer.Transition(last.lx, [] + last.events);
  }

  /** A line up to the first character of its terminator, lexed from a line start. */
  lemma {:induction false} LexBody(lx: Lexer.LexerState, l: Line, slen: nat)
    requires Lexer.AtLineStart(lx) && Lexer.CleanAtLineStart(lx) && LineOk(l, slen)
    ensures SegmentsOk(BodySegments(l), slen)
    ensures Lexer.Lex(lx, SegTokens(BodySegments(l))) == Lexer.Transition(TermState(TermChar(l.term)), LineEvents(l))
  {
    var t := TermChar(l.term);
    var h := [HeadSegment(l)];
    var body := PairSegments(l.pairs, t);
    assert SegmentsOk(h, slen);
    PairSegmentsOk(l.pairs, t, slen);
    SegmentsAppend(h, body, slen);
    Lexer.LexAppend(lx, SegTokens(h), SegTokens(body));
    LexHead(lx, l);
    if l.pairs == [] {
      assert SegTokens(body) == [];
      assert LineEvents(l) == [Lexer.Command(l.cmd)];
      assert [] + [Lexer.Command(l.cmd)] == [Lexer.Command(l.cmd)];
    } else {
      LexPairs(l.cmd, [], l.pairs, t, slen);
      assert [] + (PairEvents(l.cmd, l.pairs) + [Lexer.Command(l.cmd)]) == PairEvents(l.cmd, l.pairs) + [Lexer.Command(l.cmd)];
    }
  }

  /** The line feed of a CRLF raises nothing and closes the line. */
  lemma {:induction false} LexTail(l: Line)
    ensures SegmentsOk(TailSegments(l), 0)
    ensures Lexer.Lex(TermState(TermChar(l.term)), SegTokens(TailSegments(l))) == Lexer.Transition(LineEnd(l), [])
  {
    if l.term.CRLF? {
      assert SegTokens(TailSegments(l)) == [NewLine];
    }
  }

  /** A space or a line terminator after a command or a value. */
  lemma {:induction false} LexDelimiter(lx: Lexer.LexerState, d: char)
    requires lx.state == Lexer.Key && (d == ' ' || d == '\n' || d == '\r')
    ensures Lexer.Lex(lx, [DelimiterToken(d)])
         == if d == ' ' then Lexer.Transition(lx, []) else Lexer.Transition(TermState(d), [Lexer.Command(lx.currentCmd)])
  {
    var toks := [DelimiterToken(d)];
    assert toks[1..] == [];
    if d == ' ' {
      assert toks == [Space];
    } else if d == '\n' {
      assert toks == [NewLine];
    } else {
      assert toks == [CarriageReturn];
    }
  }

  /**
   * A well-formed line, lexed from a line start: one `Attribute` per pair,
   * in order, then exactly one `Command`, and the machine is back at a line
   * start with nothing carried over.
   */
  lemma {:induction false} LexLine(lx: Lexer.LexerState, l: Line, slen: nat)
    requires Lexer.AtLineStart(lx) && Lexer.CleanAtLineStart(lx) && LineOk(l, slen)
    ensures SegmentsOk(LineSegments(l), slen)
    ensures Lexer.Lex(lx, SegTokens(LineSegments(l))) == Lexer.Transition(LineEnd(l), LineEvents(l))
  {
    LineSegmentsOk(l, slen);
    SegmentsAppend(BodySegments(l), TailSegments(l), slen);
    Lexer.LexAppend(lx, SegTokens(BodySegments(l)), SegTokens(TailSegments(l)));
    LexBody(lx, l, slen);
    LexTail(l);
    assert LineEvents(l) + [] == LineEvents(l);
  }
}

=== FILE: output.dfy ===
/**
 * The buffered console output of src/output.rs: a byte FIFO of fixed
 * capacity in front of a non-blocking serial writer. The writer is a script
 * of replies, one per byte offered: it takes the byte, says `WouldBlock`,
 * or fails. Once the script is used up it answers `WouldBlock` for ever, as
 * a line that stays busy would.
 */
module Output {
  import opened Core
  import opened Nb
  import RingBuffer
  import Utf8

  /** Capacity of the output ring buffer (`RingBuffer<u8, U128>`). */
  const OutCap: nat := 128

  /** The writer's reply to `write(byte)`. */
  datatype SinkReply<+E> = Accept | Block | Fail(error: E)

  /** The number of bytes a run of replies took. */
  ghost function Accepted<E>(replies: seq<SinkReply<E>>): nat
    decreases |replies|
  {
    if replies == [] then 0 else (if replies[0].Accept? then 1 else 0) + Accepted(replies[1..])
  }

  lemma {:induction false} AcceptedAppend<E>(a: seq<SinkReply<E>>, b: seq<SinkReply<E>>)
    ensures Accepted(a + b) == Accepted(a) + Accepted(b)
    decreases |a|
  {
    if a == [] {
      assert a + b == b;
    } else {
      assert (a + b)[1..] == a[1..] + b;
      AcceptedAppend(a[1..], b);
    }
  }

  /** The replies consumed between two points of the script: the prefix of `before` that `after` no longer holds. */
  ghost function Consumed<E>(before: seq<SinkReply<E>>, after: seq<SinkReply<E>>): seq<SinkReply<E>>
    requires |after| <= |before|
  {
    before[..|before| - |after|]
  }

  /** `after` is what is left of the script `before` once some replies were read. */
  ghost predicate Suffix<E>(after: seq<SinkReply<E>>, before: seq<SinkReply<E>>) {
    |after| <= |before| && after == before[|before| - |after|..]
  }

  /** No reply of the run is a writer error. */
  ghost predicate NoFault<E>(replies: seq<SinkReply<E>>) {
    forall i :: 0 <= i < |replies| ==> !replies[i].Fail?
  }

  lemma {:induction false} NoFaultAppend<E>(a: seq<SinkReply<E>>, b: seq<SinkReply<E>>)
    ensures NoFault(a + b) <==> NoFault(a) && NoFault(b)
  {
    if NoFault(a) && NoFault(b) {
      forall i | 0 <= i < |a + b| ensures !(a + b)[i].Fail? {
        if i >= |a| {
          assert (a + b)[i] == b[i - |a|];
        }
      }
    }
    if NoFault(a + b) {
      forall i | 0 <= i < |a| ensures !a[i].Fail? {
        assert (a + b)[i] == a[i];
      }
      forall i | 0 <= i < |b| ensures !b[i].Fail? {
        assert (a + b)[|a| + i] == b[i];
      }
    }
  }

  /** A writer error as the last reply read means the replies read hold a fault. */
  lemma {:induction false} LastFault<E>(before: seq<SinkReply<E>>, after: seq<SinkReply<E>>)
    requires Suffix(after, before) && |after| < |before| && before[|before| - |after| - 1].Fail?
    ensures !NoFault(Consumed(before, after))
  {
    assert Consumed(before, after)[|before| - |after| - 1] == before[|before| - |after| - 1];
  }

  /** `peek`: the front byte, if any; the queue is only read. */
  function Peek(q: seq<u8>): (r: Option<u8>)
    ensures r.None? <==> q == []
    ensures r.Some? ==> q != [] && r.value == q[0]
  {
    if q == [] then None else Some(q[0])
  }

  /** What one call of `flush` did: the queue and script it left, the bytes it wrote, its result. */
  datatype FlushRun<+E> = FlushRun(queue: seq<u8>, sink: seq<SinkReply<E>>, written: seq<u8>, res: Result<(), E>)

  /**
   * `flush`: offers the front byte to the writer and dequeues it only once
   * the writer took it, until the queue is empty (`Ok`), the writer would
   * block (`WouldBlock`) or it fails (its error). Bytes leave in FIFO order:
   * those written followed by those left are the old queue. A byte the
   * writer did not take is still at the front.
   */
  function Flush<E>(q: seq<u8>, sink: seq<SinkReply<E>>): (r: FlushRun<E>)
    ensures r.written + r.queue == q
    ensures r.res.Ok? <==> r.queue == []
    ensures !r.res.Panic?
    ensures Suffix(r.sink, sink) && |r.written| <= |sink| - |r.sink|
    ensures q == [] ==> r.sink == sink && r.written == []
    ensures q != [] && |sink| > 0 ==> |r.sink| < |sink|
    decreases |q|
  {
    match Peek(q)
    case None => FlushRun(q, sink, [], Ok(()))
    case Some(c) =>
      if |sink| == 0 then FlushRun(q, sink, [], WouldBlock)
      else
        match sink[0]
        case Block => FlushRun(q, sink[1..], [], WouldBlock)
        case Fail(e) => FlushRun(q, sink[1..], [], Other(e))
        case Accept =>
          var r := Flush(q[1..], sink[1..]);
          assert [c] + r.written + r.queue == q;
          FlushRun(r.queue, r.sink, [c] + r.written, r.res)
  }

  /**
   * `flush` hands the writer one byte per reply it reads: every byte written
   * was taken, and the replies it read took exactly the bytes written.
   */
  lemma {:induction false} FlushReplies<E>(q: seq<u8>, sink: seq<SinkReply<E>>)
    ensures var r := Flush(q, sink);
      && Accepted(Consumed(sink, r.sink)) == |r.written|
      && (forall i :: 0 <= i < |r.written| ==> sink[i].Accept?)
    ensures FlushStops(q, sink)
    decreases |q|
  {
    FlushStopsAll(q, sink);
    if q != [] && |sink| > 0 && sink[0].Accept? {
      var r := Flush(q[1..], sink[1..]);
      FlushReplies(q[1..], sink[1..]);
      ConsumedCons(sink, r.sink);
      forall i | 1 <= i < |r.written| + 1 ensures sink[i].Accept? {
        assert sink[i] == sink[1..][i - 1];
      }
    }
  }

  lemma {:induction false} ConsumedCons<E>(sink: seq<SinkReply<E>>, rest: seq<SinkReply<E>>)
    requires |sink| > 0 && Suffix(rest, sink[1..])
    ensures Accepted(Consumed(sink, rest)) == (if sink[0].Accept? then 1 else 0) + Accepted(Consumed(sink[1..], rest))
  {
    assert Consumed(sink, rest) == [sink[0]] + Consumed(sink[1..], rest);
    assert Consumed(sink, rest)[1..] == Consumed(sink[1..], rest);
  }

  /**
   * `flush` stops on the first reply that did not take its byte, and returns
   * that reply's `WouldBlock` or error; an exhausted script reads as
   * `WouldBlock`.
   */
  ghost predicate FlushStops<E>(q: seq<u8>, sink: seq<SinkReply<E>>) {
    var r := Flush(q, sink);
    && (r.res.Other? ==> |r.written| < |sink| && sink[|r.written|] == Fail(r.res.error)
                         && |r.sink| == |sink| - |r.written| - 1)
    && (r.res.WouldBlock? ==> |r.written| == |sink| || sink[|r.written|] == Block)
  }

  lemma {:induction false} FlushStopsAll<E>(q: seq<u8>, sink: seq<SinkReply<E>>)
    ensures FlushStops(q, sink)
    decreases |q|
  {
    if q != [] && |sink| > 0 && sink[0].Accept? {
      FlushStopsAll(q[1..], sink[1..]);
      var r := Flush(q[1..], sink[1..]);
      if |r.written| < |sink[1..]| {
        assert sink[1 + |r.written|] == sink[1..][|r.written|];
      }
    }
  }

  /**
   * A `flush` that does not fail read no writer error: it stops on the first
   * one it meets, so every reply it read before took its byte or blocked.
   */
  lemma {:induction false} FlushNoFault<E>(q: seq<u8>, sink: seq<SinkReply<E>>)
    ensures !Flush(q, sink).res.Other? ==> NoFault(Consumed(sink, Flush(q, sink).sink))
    decreases |q|
  {
    var r := Flush(q, sink);
    if q == [] || |sink| == 0 {
      assert Consumed(sink, r.sink) == [];
    } else if sink[0].Accept? {
      var r' := Flush(q[1..], sink[1..]);
      assert r.sink == r'.sink && r.res == r'.res;
      FlushNoFault(q[1..], sink[1..]);
      NoFaultCons(sink, r'.sink);
    } else if sink[0].Block? {
      assert Consumed(sink, r.sink) == [sink[0]];
    }
  }

  lemma {:induction false} NoFaultCons<E>(sink: seq<SinkReply<E>>, rest: seq<SinkReply<E>>)
    requires |sink| > 0 && !sink[0].Fail? && Suffix(rest, sink[1..])
    ensures NoFault(Consumed(sink, rest)) <==> NoFault(Consumed(sink[1..], rest))
  {
    assert Consumed(sink, rest) == [sink[0]] + Consumed(sink[1..], rest);
    NoFaultAppend([sink[0]], Consumed(sink[1..], rest));
  }

  /** A script that takes n bytes in a row. */
  function Accepts<E>(n: nat): (s: seq<SinkReply<E>>)
    ensures |s| == n && forall i :: 0 <= i < n ==> s[i] == Accept
  {
    seq(n, i => Accept)
  }

  /**
   * A writer that takes every byte empties the queue: `flush` writes the
   * whole queue, in order, uses exactly one reply per byte, and returns `Ok`.
   */
  lemma {:induction false} FlushAccepting<E>(q: seq<u8>, rest: seq<SinkReply<E>>)
    ensures Flush(q, Accepts<E>(|q|) + rest) == FlushRun([], rest, q, Ok(()))
    decreases |q|
  {
    if q != [] {
      var s := Accepts<E>(|q|) + rest;
      assert s[0] == Accept;
      assert s[1..] == Accepts<E>(|q| - 1) + rest;
      FlushAccepting(q[1..], rest);
      assert [q[0]] + q[1..] == q;
    }
  }

  /** A second `flush` right after one that returned `Ok` writes nothing and does not call the writer. */
  lemma {:induction false} FlushIdempotent<E>(q: seq<u8>, sink: seq<SinkReply<E>>)
    requires Flush(q, sink).res.Ok?
    ensures var r := Flush(q, sink); Flush(r.queue, r.sink) == FlushRun(r.queue, r.sink, [], Ok(()))
  {
  }

  /** How `write_str` ended. `Stuck` stands for the source spinning for ever on a writer that never takes a byte. */
  datatype WriteOutcome = Done | FmtError | Stuck

  /**
   * One pass of the outer loop of `write_str`: tries to enqueue b, and while
   * the queue is full flushes and tries again. It gives up only on a writer
   * error. The source would spin for ever on a full queue and a writer that
   * never takes a byte; that is `Stuck`, once the script is exhausted.
   */
  method PushByte<E>(q0: seq<u8>, b: u8, sink0: seq<SinkReply<E>>)
      returns (q: seq<u8>, sink: seq<SinkReply<E>>, written: seq<u8>, res: WriteOutcome)
    requires |q0| <= OutCap
    ensures |q| <= OutCap
    ensures Suffix(sink, sink0) && Accepted(Consumed(sink0, sink)) == |written|
    ensures written + q == if res.Done? then q0 + [b] else q0
    ensures res.FmtError? ==> |sink| < |sink0| && sink0[|sink0| - |sink| - 1].Fail?
    ensures res.FmtError? <==> !NoFault(Consumed(sink0, sink))
    ensures res.Stuck? ==> |sink| == 0 && |q| == OutCap
    ensures |q0| < OutCap ==> res.Done? && q == q0 + [b] && sink == sink0 && written == []
  {
    q, sink, written := q0, sink0, [];
    while true
      invariant |q| <= OutCap
      invariant Suffix(sink, sink0) && Accepted(Consumed(sink0, sink)) == |written|
      invariant written + q == q0
      invariant NoFault(Consumed(sink0, sink))
      invariant |q0| < OutCap ==> q == q0 && sink == sink0 && written == []
      decreases |sink|
    {
      var e := RingBuffer.Enqueue(q, b, OutCap);
      if e.Some? {
        q, res := e.value, Done;
        return;
      }
      if |sink| == 0 {
        res := Stuck;
        return;
      }
      var failed;
      q, sink, written, failed := RetryFlush(q0, q, written, sink0, sink);
      if failed {
        res := FmtError;
        return;
      }
    }
  }

  /**
   * One flush inside the retry loop of `PushByte`: it reads at least one
   * reply, keeps the loop's invariant, and fails exactly when it read a
   * writer error, which is then the last reply read.
   */
  method RetryFlush<E>(ghost q0: seq<u8>, q: seq<u8>, written: seq<u8>, ghost sink0: seq<SinkReply<E>>, sink: seq<SinkReply<E>>)
      returns (q': seq<u8>, sink': seq<SinkReply<E>>, written': seq<u8>, failed: bool)
    requires q != [] && |sink| > 0
    requires Suffix(sink, sink0) && Accepted(Consumed(sink0, sink)) == |written| && written + q == q0
    requires NoFault(Consumed(sink0, sink))
    ensures |sink'| < |sink| && |q'| <= |q|
    ensures Suffix(sink', sink0) && Accepted(Consumed(sink0, sink')) == |written'| && written' + q' == q0
    ensures failed <==> !NoFault(Consumed(sink0, sink'))
    ensures failed ==> |sink'| < |sink0| && sink0[|sink0| - |sink'| - 1].Fail?
  {
    var f := Flush(q, sink);
    FlushKeeps(q0, q, written, sink0, sink);
    q', sink', written', failed := f.queue, f.sink, written + f.written, f.res.Other?;
    if failed {
      LastFault(sink0, sink');
    }
  }

  /** A flush inside the retry loop keeps its invariant, reads at least one reply, and locates a writer error. */
  lemma {:induction false} FlushKeeps<E>(q0: seq<u8>, q: seq<u8>, written: seq<u8>, sink0: seq<SinkReply<E>>, sink: seq<SinkReply<E>>)
    requires q != [] && |sink| > 0
    requires Suffix(sink, sink0) && Accepted(Consumed(sink0, sink)) == |written| && written + q == q0
    ensures var f := Flush(q, sink);
      && |f.sink| < |sink| && |f.queue| <= |q|
      && Suffix(f.sink, sink0) && Accepted(Consumed(sink0, f.sink)) == |written + f.written|
      && (written + f.written) + f.queue == q0
      && (f.res.Other? ==> |f.sink| < |sink0| && sink0[|sink0| - |f.sink| - 1].Fail?)
      && (!f.res.Other? && NoFault(Consumed(sink0, sink)) ==> NoFault(Consumed(sink0, f.sink)))
  {
    var f := Flush(q, sink);
    FlushReplies(q, sink);
    FlushNoFault(q, sink);
    ConsumedStep(sink0, sink, f.sink);
    NoFaultAppend(Consumed(sink0, sink), Consumed(sink, f.sink));
    RepliesCompose(written, f.written, sink0, sink, f.sink);
    Regroup(written, f.written, f.queue, q, []);
    if f.res.Other? {
      FlushKeepsError(sink0, sink, f);
    }
  }

  /** Replies read in two stages took the bytes of both stages. */
  lemma {:induction false} RepliesCompose<E>(written: seq<u8>, w: seq<u8>, sink0: seq<SinkReply<E>>, sink: seq<SinkReply<E>>, sink': seq<SinkReply<E>>)
    requires Suffix(sink, sink0) && Accepted(Consumed(sink0, sink)) == |written|
    requires Suffix(sink', sink) && Accepted(Consumed(sink, sink')) == |w|
    ensures Suffix(sink', sink0) && Accepted(Consumed(sink0, sink')) == |written + w|
  {
    ConsumedStep(sink0, sink, sink');
    AcceptedAppend(Consumed(sink0, sink), Consumed(sink, sink'));
  }

  lemma {:induction false} FlushKeepsError<E>(sink0: seq<SinkReply<E>>, sink: seq<SinkReply<E>>, f: FlushRun<E>)
    requires Suffix(sink, sink0) && f.res.Other?
    requires |f.written| < |sink| && sink[|f.written|] == Fail(f.res.error) && |f.sink| == |sink| - |f.written| - 1
    ensures |f.sink| < |sink0| && sink0[|sink0| - |f.sink| - 1].Fail?
  {
    SuffixIndex(sink0, sink, |f.written|);
  }

  /** Bytes moved from the queue to the writer are still in order. */
  lemma {:induction false} Regroup(a: seq<u8>, w: seq<u8>, q': seq<u8>, q: seq<u8>, x: seq<u8>)
    requires w + q' == q + x
    ensures (a + w) + q' == (a + q) + x
  {
    assert (a + w) + q' == a + (w + q');
    assert (a + q) + x == a + (q + x);
  }

  /**
   * `write_str`: enqueues the UTF-8 bytes of s one at a time, each through
   * `PushByte`. A `WouldBlock` from a flush just means "try again"; only a
   * writer error gives up, with `fmt::Error`. Nothing is lost or reordered:
   * the bytes the writer took, followed by the queue, are always the old
   * queue followed by a prefix of the bytes of s, all of them when the call
   * is `Done`.
   */
  method WriteStr<E>(q0: seq<u8>, s: string, sink0: seq<SinkReply<E>>)
      returns (q: seq<u8>, sink: seq<SinkReply<E>>, written: seq<u8>, res: WriteOutcome)
    requires |q0| <= OutCap
    ensures |q| <= OutCap
    ensures Suffix(sink, sink0) && Accepted(Consumed(sink0, sink)) == |written|
    ensures |written + q| <= |q0 + Utf8.EncodeString(s)|
    ensures written + q == (q0 + Utf8.EncodeString(s))[..|written + q|]
    ensures res.Done? ==> written + q == q0 + Utf8.EncodeString(s)
    ensures res.FmtError? ==> |sink| < |sink0| && sink0[|sink0| - |sink| - 1].Fail?
    ensures res.FmtError? <==> !NoFault(Consumed(sink0, sink))
    ensures res.Stuck? ==> |sink| == 0 && |q| == OutCap
    ensures |q0| + |Utf8.EncodeString(s)| <= OutCap ==> res.Done? && sink == sink0 && written == []
  {
    q, sink, written, res := PushAll(q0, Utf8.EncodeString(s), sink0);
  }

  /** The loop of `write_str` over the bytes of the string, one `PushByte` each. */
  method PushAll<E>(q0: seq<u8>, bytes: seq<u8>, sink0: seq<SinkReply<E>>)
      returns (q: seq<u8>, sink: seq<SinkReply<E>>, written: seq<u8>, res: WriteOutcome)
    requires |q0| <= OutCap
    ensures |q| <= OutCap
    ensures Suffix(sink, sink0) && Accepted(Consumed(sink0, sink)) == |written|
    ensures |written + q| <= |q0 + bytes|
    ensures written + q == (q0 + bytes)[..|written + q|]
    ensures res.Done? ==> written + q == q0 + bytes
    ensures res.FmtError? ==> |sink| < |sink0| && sink0[|sink0| - |sink| - 1].Fail?
    ensures res.FmtError? <==> !NoFault(Consumed(sink0, sink))
    ensures res.Stuck? ==> |sink| == 0 && |q| == OutCap
    ensures |q0| + |bytes| <= OutCap ==> res.Done? && sink == sink0 && written == []
  {
    q, sink, written := q0, sink0, [];
    res := Done;
    var i := 0;
    while i < |bytes|
      invariant 0 <= i <= |bytes|
      invariant |q| <= OutCap
      invariant Suffix(sink, sink0) && Accepted(Consumed(sink0, sink)) == |written|
      invariant written + q == q0 + bytes[..i]
      invariant NoFault(Consumed(sink0, sink))
      invariant |q0| + |bytes| <= OutCap ==> |sink| == |sink0| && written == []
    {
      var r;
      q, sink, written, r := PushNext(q0, bytes, i, written, q, sink0, sink);
      if !r.Done? {
        res := r;
        PrefixOf(q0, bytes, i, written + q);
        return;
      }
      i := i + 1;
    }
    assert bytes[..i] == bytes;
    assert sink0[0..] == sink0;
  }

  /**
   * One pass of the outer loop of `write_str`: pushes the i-th byte and
   * carries the loop's bookkeeping from the call's start over that push.
   */
  method PushNext<E>(q0: seq<u8>, bytes: seq<u8>, i: nat, written: seq<u8>, q: seq<u8>,
                     sink0: seq<SinkReply<E>>, sink: seq<SinkReply<E>>)
      returns (q': seq<u8>, sink': seq<SinkReply<E>>, written': seq<u8>, r: WriteOutcome)
    requires i < |bytes| && |q| <= OutCap && written + q == q0 + bytes[..i]
    requires Suffix(sink, sink0) && Accepted(Consumed(sink0, sink)) == |written|
    requires NoFault(Consumed(sink0, sink))
    requires |q0| + |bytes| <= OutCap ==> sink == sink0 && written == []
    ensures |q'| <= OutCap
    ensures Suffix(sink', sink0) && Accepted(Consumed(sink0, sink')) == |written'|
    ensures written' + q' == q0 + bytes[..if r.Done? then i + 1 else i]
    ensures r.FmtError? ==> |sink'| < |sink0| && sink0[|sink0| - |sink'| - 1].Fail?
    ensures r.FmtError? <==> !NoFault(Consumed(sink0, sink'))
    ensures r.Stuck? ==> |sink'| == 0 && |q'| == OutCap
    ensures |q0| + |bytes| <= OutCap ==> r.Done? && sink' == sink0 && written' == []
  {
    var w;
    q', sink', w, r := PushByte(q, bytes[i], sink);
    PushStep(q0, bytes, i, written, q, sink0, sink, w, q', sink', r);
    written' := written + w;
  }

  /** One pass of the outer loop of `write_str` keeps the loop's invariant, and locates a writer error in the whole script. */
  lemma {:induction false} PushStep<E>(q0: seq<u8>, bytes: seq<u8>, i: nat, written: seq<u8>, q: seq<u8>,
                    sink0: seq<SinkReply<E>>, sink: seq<SinkReply<E>>,
                    w: seq<u8>, q': seq<u8>, sink': seq<SinkReply<E>>, r: WriteOutcome)
    requires i < |bytes| && written + q == q0 + bytes[..i]
    requires Suffix(sink, sink0) && Accepted(Consumed(sink0, sink)) == |written|
    requires Suffix(sink', sink) && Accepted(Consumed(sink, sink')) == |w|
    requires w + q' == if r.Done? then q + [bytes[i]] else q
    requires r.FmtError? ==> |sink'| < |sink| && sink[|sink| - |sink'| - 1].Fail?
    requires NoFault(Consumed(sink0, sink)) && (r.FmtError? <==> !NoFault(Consumed(sink, sink')))
    requires |q0| + |bytes| <= OutCap ==> sink == sink0 && written == []
    requires |q| < OutCap ==> r.Done? && sink' == sink && w == []
    ensures Suffix(sink', sink0) && Accepted(Consumed(sink0, sink')) == |written + w|
    ensures (written + w) + q' == q0 + bytes[..if r.Done? then i + 1 else i]
    ensures r.FmtError? ==> |sink'| < |sink0| && sink0[|sink0| - |sink'| - 1].Fail?
    ensures r.FmtError? <==> !NoFault(Consumed(sink0, sink'))
    ensures |q0| + |bytes| <= OutCap ==> r.Done? && sink' == sink0 && written + w == []
  {
    if |q0| + |bytes| <= OutCap {
      assert |written + q| == |q0| + i;
    }
    RepliesCompose(written, w, sink0, sink, sink');
    ConsumedStep(sink0, sink, sink');
    NoFaultAppend(Consumed(sink0, sink), Consumed(sink, sink'));
    if r.FmtError? {
      SuffixIndex(sink0, sink, |sink| - |sink'| - 1);
    }
    ByteStep(q0, bytes, i, written, q, w, q', r.Done?);
  }

  /** One pass of the outer loop of `write_str` keeps the bytes in order. */
  lemma {:induction false} ByteStep(q0: seq<u8>, bytes: seq<u8>, i: nat, written: seq<u8>, q: seq<u8>, w: seq<u8>, q': seq<u8>, done: bool)
    requires i < |bytes| && written + q == q0 + bytes[..i]
    requires w + q' == if done then q + [bytes[i]] else q
    ensures (written + w) + q' == q0 + bytes[..if done then i + 1 else i]
  {
    Regroup(written, w, q', q, if done then [bytes[i]] else []);
    assert bytes[..i + 1] == bytes[..i] + [bytes[i]];
  }

  /** The bytes queued so far are a prefix of everything handed over. */
  lemma {:induction false} PrefixOf(q0: seq<u8>, bytes: seq<u8>, i: nat, sofar: seq<u8>)
    requires i <= |bytes| && sofar == q0 + bytes[..i]
    ensures |sofar| <= |q0 + bytes| && sofar == (q0 + bytes)[..|sofar|]
  {
    assert (q0 + bytes)[..|sofar|] == q0 + bytes[..i];
  }

  lemma {:induction false} SuffixIndex<E>(before: seq<SinkReply<E>>, after: seq<SinkReply<E>>, k: nat)
    requires Suffix(after, before) && k < |after|
    ensures before[|before| - |after| + k] == after[k]
  {
  }

  /** Reading a script in two stages consumes the two stages' replies in order. */
  lemma {:induction false} ConsumedStep<E>(s0: seq<SinkReply<E>>, s1: seq<SinkReply<E>>, s2: seq<SinkReply<E>>)
    requires Suffix(s1, s0) && Suffix(s2, s1)
    ensures Suffix(s2, s0)
    ensures Consumed(s0, s2) == Consumed(s0, s1) + Consumed(s1, s2)
  {
  }
}

=== FILE: scenarios.dfy ===
/**
 * The scenarios of src/tests.rs, stated for every run rather than checked on
 * one: a test device filled with a string, then `parse_data` with the
 * default string capacity of 32 bytes (`LightCli<U32>`).
 *
 * Facts about one string literal each (`HelloOk`, `HeartOk`, `FiftyOk`,
 * `Test1Text`, `PartialText`, `PartialTokens`, `HeadSize`, `MidSize`,
 * `TailSize`, `LineFeed`) are lemmas of their own on purpose. A literal
 * makes the solver unfold the functions applied to it character by
 * character; done in a small context this is cheap, while the same facts
 * stated inside the scenario lemmas that cite them make those proofs far
 * more expensive.
 */
module Scenarios {
  import opened Nb
  import opened Tokenizer
  import TokenizerLemmas
  import Utf8
  import Lexer
  import opened Lines
  import Session

  /** The string capacity of the tests' `LightCli<U32>`. */
  const Cap: nat := 32

  /** The test device's error type; its reads never fail. */
  datatype DeviceError = NoError

  /** `Lexer::new` with an empty tokenizer, as `LightCli::new` builds them. */
  function Fresh(): Lexer.LexerState {
    Lexer.New()
  }

  /** The test device after `write_str(s)`, read by `fill` into an empty buffer. */
  function Filled(tk: State, s: string): FillRun<DeviceError>
    requires |tk.rb| <= InCap
  {
    Fill(tk, TokenizerLemmas.Script<DeviceError>(Utf8.EncodeString(s)))
  }

  lemma {:induction false} FilledAll(tk: State, s: string)
    requires |tk.rb| + Utf8.ByteLen(s) <= InCap
    ensures Filled(tk, s).res.Ok? && Filled(tk, s).tk == State(tk.rb + Utf8.EncodeString(s), tk.nextstr)
  {
    TokenizerLemmas.FillScript<DeviceError>(tk, Utf8.EncodeString(s));
  }

  /** `HELLO TE❤ST=50` and a line feed. */
  function Test1Line(): Line {
    Line("HELLO", [Pair("TE\U{2764}ST", "50")], LF)
  }

  /** A short word with no delimiter in it fits the string capacity. */
  lemma {:induction false} ShortWord(w: string)
    requires w != [] && DelimiterFree(w) && |w| <= Cap / 4
    ensures WordOk(w, Cap)
  {
    Utf8.ByteLenBounds(w);
  }

  /** The words of the two scenarios fit the capacity (a literal fact each; see the module comment). */
  lemma {:induction false} HelloOk()
    ensures WordOk("HELLO", Cap)
  {
    ShortWord("HELLO");
  }

  lemma {:induction false} HeartOk()
    ensures WordOk("TE\U{2764}ST", Cap)
  {
    ShortWord("TE\U{2764}ST");
  }

  lemma {:induction false} FiftyOk()
    ensures WordOk("50", Cap)
  {
    ShortWord("50");
  }

  lemma {:induction false} Test1Ok()
    ensures Session.LinesOk([Test1Line()], Cap)
  {
    HelloOk();
    HeartOk();
    FiftyOk();
    assert LineOk(Test1Line(), Cap);
  }

  /** test1's line as text (a literal fact; see the module comment). */
  lemma {:induction false} Test1Text()
    ensures Session.LinesText([Test1Line()]) == "HELLO TE\U{2764}ST=50\n"
  {
  }

  /** A string of at most 16 characters fits in the input buffer. */
  lemma {:induction false} SmallText(s: string)
    requires |s| <= 16
    ensures Utf8.ByteLen(s) <= InCap
  {
    Utf8.ByteLenBounds(s);
  }

  lemma {:induction false} Test1Events()
    ensures Session.LinesEvents([Test1Line()]) == [Lexer.Attribute("HELLO", "TE\U{2764}ST", "50"), Lexer.Command("HELLO")]
    ensures Session.LinesEnd(Fresh(), [Test1Line()]) == Lexer.LexerState([], [], Lexer.NewCommand)
  {
    assert Session.LinesEvents([Test1Line()]) == LineEvents(Test1Line()) + [];
  }

  /**
   * Whole lines written to the test device, filled into an empty tokenizer
   * and parsed by a fresh lexer: `fill` returns `Ok`, and `parse_data`
   * raises every line's events and consumes every byte.
   */
  lemma {:induction false} ParseFilled(ls: seq<Line>, slen: nat)
    requires Session.LinesOk(ls, slen) && Utf8.ByteLen(Session.LinesText(ls)) <= InCap
    ensures Filled(State([], []), Session.LinesText(ls)).res.Ok?
    ensures Lexer.ParseData(Fresh(), Filled(State([], []), Session.LinesText(ls)).tk, slen)
         == Lexer.Parsed(Session.LinesEnd(Fresh(), ls), State([], []), Session.LinesEvents(ls), WouldBlock)
  {
    FilledAll(State([], []), Session.LinesText(ls));
    assert State([], []).rb + Utf8.EncodeString(Session.LinesText(ls)) == Utf8.EncodeString(Session.LinesText(ls));
    Session.ParseLines(Fresh(), ls, slen);
  }

  /**
   * test1: one line with one pair, filled and parsed in one go, raises the
   * `Attribute` of the pair and then exactly one `Command`, and consumes
   * every byte.
   */
  lemma {:induction false} Test1()
    ensures var f := Filled(State([], []), "HELLO TE\U{2764}ST=50\n");
      && f.res.Ok?
      && Lexer.ParseData(Fresh(), f.tk, Cap)
         == Lexer.Parsed(Lexer.LexerState([], [], Lexer.NewCommand), State([], []),
                         [Lexer.Attribute("HELLO", "TE\U{2764}ST", "50"), Lexer.Command("HELLO")], WouldBlock)
  {
    Test1Ok();
    Test1Text();
    SmallText("HELLO TE\U{2764}ST=50\n");
    Test1Events();
    ParseFilled([Test1Line()], Cap);
  }

  /** One token, then the rest. */
  lemma {:induction false} LexCons(lx: Lexer.LexerState, t: Token, rest: seq<Token>)
    ensures var st := Lexer.Step(lx, t); var r := Lexer.Lex(st.lx, rest);
      Lexer.Lex(lx, [t] + rest) == Lexer.Transition(r.lx, st.events + r.events)
  {
    assert ([t] + rest)[0] == t;
    assert ([t] + rest)[1..] == rest;
  }

  /** The first chunk of test_partial: the command, a whole pair, and a key with its value still arriving. */
  function PartialSegments(): seq<Segment> {
    [Segment("HELLO", ' '), Segment("TE\U{2764}ST", '='), Segment("50", ' '), Segment("Five", '=')]
  }

  lemma {:induction false} PartialOk()
    ensures SegmentsOk(PartialSegments(), Cap)
  {
    var segs := PartialSegments();
    HelloOk();
    HeartOk();
    FiftyOk();
    ShortWord("Five");
    forall i | 0 <= i < |segs|
      ensures DelimiterFree(segs[i].word) && Utf8.ByteLen(segs[i].word) <= Cap && IsDelimiter(segs[i].delim)
    {
      assert i == 0 || i == 1 || i == 2 || i == 3;
    }
  }

  /** The first chunk of test_partial as text and as tokens (literal facts; see the module comment). */
  lemma {:induction false} PartialText()
    ensures SegText(PartialSegments()) + "A" == "HELLO TE\U{2764}ST=50 Five=A"
  {
  }

  lemma {:induction false} PartialTokens()
    ensures SegTokens(PartialSegments())
         == [Value("HELLO"), Space, Value("TE\U{2764}ST"), Equals, Value("50"), Space, Value("Five"), Equals]
  {
  }

  /**
   * The tokenizer over the first chunk: it emits the tokens up to the last
   * `=`, and keeps the `A` that follows as pending text, since no delimiter
   * has closed it yet.
   */
  lemma {:induction false} PartialFirstRun()
    ensures GetTokens(State(Utf8.EncodeString(SegText(PartialSegments()) + "A"), []), Cap)
         == Run(State([], "A"), SegTokens(PartialSegments()), WouldBlock)
  {
    PartialOk();
    TokenizeUnfinished(PartialSegments(), "A", Cap);
  }

  /** The lexer from the `=` after the first key to the end of the first chunk. */
  lemma {:induction false} PartialPairLex()
    ensures Lexer.Lex(Lexer.LexerState("HELLO", "TE\U{2764}ST", Lexer.Value), [Value("50"), Space, Value("Five"), Equals])
         == Lexer.Transition(Lexer.LexerState("HELLO", "Five", Lexer.Value), [Lexer.Attribute("HELLO", "TE\U{2764}ST", "50")])
  {
    var open := Lexer.LexerState("HELLO", "TE\U{2764}ST", Lexer.Key);
    LexCons(Lexer.LexerState("HELLO", "Five", Lexer.Value), Equals, []);
    LexCons(open, Value("Five"), [Equals]);
    LexCons(open, Space, [Value("Five"), Equals]);
    LexCons(Lexer.LexerState("HELLO", "TE\U{2764}ST", Lexer.Value), Value("50"), [Space, Value("Five"), Equals]);
  }

  /** The lexer over the first chunk's tokens: one `Attribute`, and a key waiting for its value. */
  lemma {:induction false} PartialFirstLex()
    ensures Lexer.Lex(Fresh(), SegTokens(PartialSegments()))
         == Lexer.Transition(Lexer.LexerState("HELLO", "Five", Lexer.Value), [Lexer.Attribute("HELLO", "TE\U{2764}ST", "50")])
  {
    PartialTokens();
    var cmd := Lexer.LexerState("HELLO", [], Lexer.Key);
    var key := Lexer.LexerState("HELLO", "TE\U{2764}ST", Lexer.Value);
    PartialPairLex();
    LexCons(key, Equals, [Value("50"), Space, Value("Five"), Equals]);
    LexCons(cmd, Value("TE\U{2764}ST"), [Equals, Value("50"), Space, Value("Five"), Equals]);
    LexCons(cmd, Space, [Value("TE\U{2764}ST"), Equals, Value("50"), Space, Value("Five"), Equals]);
    LexCons(Fresh(), Value("HELLO"), [Space, Value("TE\U{2764}ST"), Equals, Value("50"), Space, Value("Five"), Equals]);
  }

  lemma {:induction false} PartialSize()
    ensures Utf8.ByteLen("HELLO TE\U{2764}ST=50 Five=A") == 23
  {
    var head, mid, tail := "HELLO TE", "\U{2764}ST=50 ", "Five=A";
    assert "HELLO TE\U{2764}ST=50 Five=A" == head + (mid + tail);
    Utf8.ByteLenAppend(head, mid + tail);
    Utf8.ByteLenAppend(mid, tail);
    HeadSize();
    MidSize();
    TailSize();
  }

  /** The byte lengths of the three pieces of the first chunk (literal facts; see the module comment). */
  lemma {:induction false} HeadSize()
    ensures Utf8.ByteLen("HELLO TE") == 8
  {
  }

  lemma {:induction false} MidSize()
    ensures Utf8.ByteLen("\U{2764}ST=50 ") == 9
  {
  }

  lemma {:induction false} TailSize()
    ensures Utf8.ByteLen("Five=A") == 6
  {
  }

  /** `parse_data` over the first chunk, from a fresh lexer. */
  lemma {:induction false} PartialFirstParse()
    ensures Lexer.ParseData(Fresh(), State(Utf8.EncodeString(SegText(PartialSegments()) + "A"), []), Cap)
         == Lexer.Parsed(Lexer.LexerState("HELLO", "Five", Lexer.Value), State([], "A"),
                         [Lexer.Attribute("HELLO", "TE\U{2764}ST", "50")], WouldBlock)
  {
    PartialFirstRun();
    PartialFirstLex();
  }

  /**
   * test_partial, first half: `HELLO TE❤ST=50 Five=A` without a line end.
   * `parse_data` raises the `Attribute` of the finished pair and no
   * `Command`; the key `Five` waits in the lexer and the text `A` waits in
   * the tokenizer for the rest of the line.
   */
  lemma {:induction false} PartialFirst()
    ensures var f := Filled(State([], []), "HELLO TE\U{2764}ST=50 Five=A");
      && f.res.Ok?
      && Lexer.ParseData(Fresh(), f.tk, Cap)
         == Lexer.Parsed(Lexer.LexerState("HELLO", "Five", Lexer.Value), State([], "A"),
                         [Lexer.Attribute("HELLO", "TE\U{2764}ST", "50")], WouldBlock)
  {
    var text := SegText(PartialSegments()) + "A";
    PartialText();
    PartialSize();
    FilledAll(State([], []), text);
    assert State([], []).rb + Utf8.EncodeString(text) == Utf8.EncodeString(text);
    PartialFirstParse();
  }

  /** The line feed that ends the line: one byte. */
  lemma {:induction false} LineFeed()
    ensures Utf8.EncodeString("\n") == Utf8.EncodeString(['\n']) == [0x0A]
    ensures Utf8.ByteLen("\n") == 1
  {
  }

  /** The tokenizer over the line feed, with `A` pending: the value, then the line end. */
  lemma {:induction false} PartialSecondRun()
    ensures GetTokens(State(Utf8.EncodeString("\n"), "A"), Cap) == Run(State([], []), [Value("A"), NewLine], WouldBlock)
  {
    LineFeed();
    TokenizerLemmas.GetTokensDelimiter('\n', "A", Cap);
    assert SendVal("A") + [DelimiterToken('\n')] == [Value("A"), NewLine];
  }

  /** The lexer over those tokens: the waiting key gets its value, and the line its `Command`. */
  lemma {:induction false} PartialSecondLex()
    ensures Lexer.Lex(Lexer.LexerState("HELLO", "Five", Lexer.Value), [Value("A"), NewLine])
         == Lexer.Transition(Fresh(), [Lexer.Attribute("HELLO", "Five", "A"), Lexer.Command("HELLO")])
  {
    LexCons(Lexer.LexerState("HELLO", "Five", Lexer.Value), Value("A"), [NewLine]);
    LexCons(Lexer.LexerState("HELLO", "Five", Lexer.Key), NewLine, []);
  }

  /** `parse_data` over the line feed, from where the first chunk left off. */
  lemma {:induction false} PartialSecondParse()
    ensures Lexer.ParseData(Lexer.LexerState("HELLO", "Five", Lexer.Value), State(Utf8.EncodeString("\n"), "A"), Cap)
         == Lexer.Parsed(Fresh(), State([], []), [Lexer.Attribute("HELLO", "Five", "A"), Lexer.Command("HELLO")], WouldBlock)
  {
    PartialSecondRun();
    PartialSecondLex();
  }

  /**
   * test_partial, second half: the line feed that finishes the line. The
   * pending `A` becomes the value of `Five`, and the line ends with its
   * `Command`; the lexer and the tokenizer are back at a clean line start.
   */
  lemma {:induction false} PartialSecond()
    ensures var f := Filled(State([], "A"), "\n");
      && f.res.Ok?
      && Lexer.ParseData(Lexer.LexerState("HELLO", "Five", Lexer.Value), f.tk, Cap)
         == Lexer.Parsed(Fresh(), State([], []),
                         [Lexer.Attribute("HELLO", "Five", "A"), Lexer.Command("HELLO")], WouldBlock)
  {
    LineFeed();
    FilledAll(State([], "A"), "\n");
    assert State([], "A").rb + Utf8.EncodeString("\n") == Utf8.EncodeString("\n");
    PartialSecondParse();
  }

  /** One `parse_data` call over both chunks together, from a fresh lexer. */
  lemma {:induction false} PartialWholeParse()
    ensures Lexer.ParseData(Fresh(), State(Utf8.EncodeString(SegText(PartialSegments()) + "A") + Utf8.EncodeString("\n"), []), Cap)
         == Lexer.Parsed(Fresh(), State([], []),
                         [Lexer.Attribute("HELLO", "TE\U{2764}ST", "50"), Lexer.Attribute("HELLO", "Five", "A"),
                          Lexer.Command("HELLO")], WouldBlock)
  {
    var five := Lexer.LexerState("HELLO", "Five", Lexer.Value);
    var ev1 := [Lexer.Attribute("HELLO", "TE\U{2764}ST", "50")];
    var p2 := Lexer.Parsed(Fresh(), State([], []), [Lexer.Attribute("HELLO", "Five", "A"), Lexer.Command("HELLO")], WouldBlock);
    assert ev1 + p2.events == [ev1[0], p2.events[0], p2.events[1]];
    PartialFirstParse();
    PartialSecondParse();
    Session.ParseDataChunks(Fresh(), Utf8.EncodeString(SegText(PartialSegments()) + "A"), Utf8.EncodeString("\n"), [], Cap,
                            five, "A", ev1, p2);
  }

  /** The whole line, as text. */
  lemma {:induction false} PartialLine()
    ensures SegText(PartialSegments()) + "A" + "\n" == "HELLO TE\U{2764}ST=50 Five=A\n"
  {
    PartialText();
  }

  /** The whole line fits the input buffer. */
  lemma {:induction false} PartialLineSize()
    ensures Utf8.ByteLen(SegText(PartialSegments()) + "A" + "\n") == 24
  {
    PartialText();
    PartialSize();
    LineFeed();
    Utf8.ByteLenAppend(SegText(PartialSegments()) + "A", "\n");
  }

  /**
   * test_partial as a whole: the two halves, each on the state the other
   * left behind, raise together exactly what one call over the whole line
   * raises — the input split mid-line changes nothing.
   */
  lemma {:induction false} PartialWhole()
    ensures var f := Filled(State([], []), "HELLO TE\U{2764}ST=50 Five=A\n");
      && f.res.Ok?
      && Lexer.ParseData(Fresh(), f.tk, Cap)
         == Lexer.Parsed(Fresh(), State([], []),
                         [Lexer.Attribute("HELLO", "TE\U{2764}ST", "50"), Lexer.Attribute("HELLO", "Five", "A"),
                          Lexer.Command("HELLO")], WouldBlock)
  {
    var first := SegText(PartialSegments()) + "A";
    var whole := first + "\n";
    PartialLine();
    PartialLineSize();
    Utf8.EncodeStringAppend(first, "\n");
    FilledAll(State([], []), whole);
    assert State([], []).rb + Utf8.EncodeString(whole) == Utf8.EncodeString(whole);
    PartialWholeParse();
  }

  /**
   * A key whose `=` is followed directly by the line end raises nothing:
   * the line gives its `Command` only, and the key is lost.
   */
  lemma {:induction false} DroppedKey(cmd: string, key: string)
    ensures Lexer.Lex(Fresh(), [Value(cmd), Space, Value(key), Equals, NewLine])
         == Lexer.Transition(Fresh(), [Lexer.Command(cmd)])
  {
    var c := Lexer.LexerState(cmd, [], Lexer.Key);
    var k := Lexer.LexerState(cmd, key, Lexer.Value);
    LexCons(k, NewLine, []);
    LexCons(k, Equals, [NewLine]);
    LexCons(c, Value(key), [Equals, NewLine]);
    LexCons(c, Space, [Value(key), Equals, NewLine]);
    LexCons(Fresh(), Value(cmd), [Space, Value(key), Equals, NewLine]);
  }

  /** A key whose `=` is followed by a space gets the empty value. */
  lemma {:induction false} EmptyValue(cmd: string, key: string)
    ensures Lexer.Lex(Fresh(), [Value(cmd), Space, Value(key), Equals, Space, NewLine])
         == Lexer.Transition(Fresh(), [Lexer.Attribute(cmd, key, []), Lexer.Command(cmd)])
  {
    var c := Lexer.LexerState(cmd, [], Lexer.Key);
    var k := Lexer.LexerState(cmd, key, Lexer.Value);
    LexCons(Lexer.LexerState(cmd, key, Lexer.Key), NewLine, []);
    LexCons(k, Space, [NewLine]);
    LexCons(k, Equals, [Space, NewLine]);
    LexCons(c, Value(key), [Equals, Space, NewLine]);
    LexCons(c, Space, [Value(key), Equals, Space, NewLine]);
    LexCons(Fresh(), Value(cmd), [Space, Value(key), Equals, Space, NewLine]);
  }
}

=== FILE: session.dfy ===
/**
 * The tokenizer and the lexer together, as `parse_data` drives them: whole
 * sessions of well-formed lines, and input delivered in several chunks.
 */
module Session {
  import opened Nb
  import opened Tokenizer
  import TokenizerLemmas
  import Utf8
  import Lexer
  import opened Lines

  /**
   * Chunk invariance of `parse_data`: when one call drains the bytes `a`,
   * buffering `b` and calling again raises the same events, in the same
   * order, and ends in the same lexer and tokenizer states as one call over
   * `a + b`. Both the pending text run and the lexer state carry across.
   */
  lemma {:induction false} ParseDataSplit(lx: Lexer.LexerState, a: seq<Core.u8>, b: seq<Core.u8>, ns: string, slen: nat)
    requires GetTokens(State(a, ns), slen).res.WouldBlock?
    ensures var p1 := Lexer.ParseData(lx, State(a, ns), slen);
      var p2 := Lexer.ParseData(p1.lx, State(b, p1.tk.nextstr), slen);
      Lexer.ParseData(lx, State(a + b, ns), slen) == Lexer.Parsed(p2.lx, p2.tk, p1.events + p2.events, p2.res)
  {
    var r1 := GetTokens(State(a, ns), slen);
    var r2 := GetTokens(State(b, r1.tk.nextstr), slen);
    TokenizerLemmas.GetTokensSplit(a, b, ns, slen);
    Lexer.LexAppend(lx, r1.tokens, r2.tokens);
  }

  /**
   * Two `parse_data` calls in a row, the second over bytes buffered after
   * the first one drained the buffer, are one call over all the bytes.
   */
  lemma {:induction false} ParseDataChunks(lx: Lexer.LexerState, a: seq<Core.u8>, b: seq<Core.u8>, ns: string, slen: nat,
                                           mid: Lexer.LexerState, pending: string, ev1: seq<Lexer.CallbackCommand>,
                                           p2: Lexer.Parsed)
    requires Lexer.ParseData(lx, State(a, ns), slen) == Lexer.Parsed(mid, State([], pending), ev1, WouldBlock)
    requires Lexer.ParseData(mid, State(b, pending), slen) == p2
    ensures Lexer.ParseData(lx, State(a + b, ns), slen) == Lexer.Parsed(p2.lx, p2.tk, ev1 + p2.events, p2.res)
  {
    ParseDataSplit(lx, a, b, ns, slen);
  }

  /** Several lines, one after the other. */
  function LinesSegments(ls: seq<Line>): seq<Segment>
    decreases |ls|
  {
    if ls == [] then [] else LineSegments(ls[0]) + LinesSegments(ls[1..])
  }

  function LinesText(ls: seq<Line>): string {
    SegText(LinesSegments(ls))
  }

  function LinesEvents(ls: seq<Line>): seq<Lexer.CallbackCommand>
    decreases |ls|
  {
    if ls == [] then [] else LineEvents(ls[0]) + LinesEvents(ls[1..])
  }

  predicate LinesOk(ls: seq<Line>, slen: nat) {
    forall i :: 0 <= i < |ls| ==> LineOk(ls[i], slen)
  }

  /** Where the lexer stands after the lines: after the last terminator. */
  function LinesEnd(lx: Lexer.LexerState, ls: seq<Line>): Lexer.LexerState {
    if ls == [] then lx else LineEnd(ls[|ls| - 1])
  }

  lemma {:induction false} LinesOkTail(ls: seq<Line>, slen: nat)
    requires ls != [] && LinesOk(ls, slen)
    ensures LineOk(ls[0], slen) && LinesOk(ls[1..], slen)
  {
    forall i | 0 <= i < |ls[1..]| ensures LineOk(ls[1..][i], slen) {
      assert ls[1..][i] == ls[i + 1];
    }
  }

  lemma {:induction false} LinesSegmentsOk(ls: seq<Line>, slen: nat)
    requires LinesOk(ls, slen)
    ensures SegmentsOk(LinesSegments(ls), slen)
    decreases |ls|
  {
    if ls != [] {
      LinesOkTail(ls, slen);
      LinesSegmentsOk(ls[1..], slen);
      LineSegmentsOk(ls[0], slen);
      SegmentsAppend(LineSegments(ls[0]), LinesSegments(ls[1..]), slen);
    }
  }

  lemma {:induction false} LinesEndCons(lx: Lexer.LexerState, ls: seq<Line>)
    requires ls != []
    ensures LinesEnd(LineEnd(ls[0]), ls[1..]) == LinesEnd(lx, ls)
  {
    if |ls| > 1 {
      assert ls[1..][|ls[1..]| - 1] == ls[|ls| - 1];
    }
  }

  /** The lexer over the tokens of whole lines raises each line's events in turn. */
  lemma {:induction false} LexLines(lx: Lexer.LexerState, ls: seq<Line>, slen: nat)
    requires Lexer.AtLineStart(lx) && Lexer.CleanAtLineStart(lx) && LinesOk(ls, slen)
    ensures SegmentsOk(LinesSegments(ls), slen)
    ensures Lexer.Lex(lx, SegTokens(LinesSegments(ls))) == Lexer.Transition(LinesEnd(lx, ls), LinesEvents(ls))
    decreases |ls|
  {
    LinesSegmentsOk(ls, slen);
    if ls != [] {
      var l := ls[0];
      LinesOkTail(ls, slen);
      LinesSegmentsOk(ls[1..], slen);
      LineSegmentsOk(l, slen);
      SegmentsAppend(LineSegments(l), LinesSegments(ls[1..]), slen);
      Lexer.LexAppend(lx, SegTokens(LineSegments(l)), SegTokens(LinesSegments(ls[1..])));
      LexLine(lx, l, slen);
      LexLines(LineEnd(l), ls[1..], slen);
      LinesEndCons(lx, ls);
    }
  }

  /**
   * A session of well-formed lines, encoded as UTF-8 and handed to one
   * `parse_data` call from a line start: it raises, line by line, one
   * `Attribute` per pair and then one `Command`, drains the buffer, leaves
   * no pending text, and returns `WouldBlock`.
   */
  lemma {:induction false} ParseLines(lx: Lexer.LexerState, ls: seq<Line>, slen: nat)
    requires Lexer.AtLineStart(lx) && Lexer.CleanAtLineStart(lx) && LinesOk(ls, slen)
    ensures Lexer.ParseData(lx, State(Utf8.EncodeString(LinesText(ls)), []), slen)
         == Lexer.Parsed(LinesEnd(lx, ls), State([], []), LinesEvents(ls), WouldBlock)
  {
    LexLines(lx, ls, slen);
    TokenizeSegments(LinesSegments(ls), slen);
  }
}

=== FILE: tokenizer.dfy ===
/**
 * The tokenizer of src/tokenizer.rs: a byte FIFO `rb` filled from a
 * non-blocking byte source, a UTF-8 decoder that reads one character at a
 * time from its front, and a loop that turns characters into tokens, keeping
 * the run of non-delimiter characters in `nextstr` across calls.
 *
 * The string capacity SLEN of the source is a type parameter there and the
 * parameter `slen` here: `nextstr` may hold at most `slen` bytes of UTF-8.
 */
module Tokenizer {
  import opened Core
  import opened Nb
  import RingBuffer
  import Utf8

  /** Capacity of the input ring buffer (`RingBuffer<u8, U64>`). */
  const InCap: nat := 64

  /** 2^32: the accumulator of `get_amount` is a `u32`. */
  const U32: int := 0x1_0000_0000

  datatype Error = InvalidUTF8 | InvalidCount | Overflow

  datatype Token = NewLine | CarriageReturn | Equals | Space | Value(text: string)

  /** The tokenizer's own state: the buffered input bytes and the pending text run. */
  datatype State = State(rb: seq<u8>, nextstr: string)

  /** One call that reads characters: what is left in `rb` and what it returned. */
  datatype Read = Read(rest: seq<u8>, res: Result<char, Error>)

  /** A Unicode scalar value: what `char::from_u32` accepts. */
  predicate IsScalar(v: int) {
    0 <= v < 0xD800 || 0xE000 <= v < 0x11_0000
  }

  /**
   * One pass of the loop of `get_amount`: byte b is classified by its high
   * bits and its payload is shifted into the `u32` accumulator v. A shift
   * `v << s` on a `u32` keeps only the low 32 - s bits of v.
   */
  function Absorb(v: nat, b: u8): (r: nat)
    ensures r < U32
    ensures Utf8.IsContinuation(b) ==> r == (v * 0x40) % U32 + b % 0x40
    ensures Utf8.LeadLength(b) == 2 ==> r == (v * 0x20) % U32 + b % 0x20
    ensures Utf8.LeadLength(b) == 3 ==> r == (v * 0x10) % U32 + b % 0x10
    ensures Utf8.LeadLength(b) == 4 ==> r == (v * 0x08) % U32 + b % 0x08
    ensures b < 0x80 || 0xF8 <= b ==> r == b
  {
    if b / 8 == 0x1E then
      assert 0xF0 <= b < 0xF8; ShiftLeft(v, 0x08); (v % 0x2000_0000) * 8 + b % 8
    else if b / 16 == 0xE then
      assert 0xE0 <= b < 0xF0; ShiftLeft(v, 0x10); (v % 0x1000_0000) * 16 + b % 16
    else if b / 32 == 0x6 then
      assert 0xC0 <= b < 0xE0; ShiftLeft(v, 0x20); (v % 0x800_0000) * 32 + b % 32
    else if b / 64 == 0x2 then
      assert 0x80 <= b < 0xC0; ShiftLeft(v, 0x40); (v % 0x400_0000) * 64 + b % 64
    else
      assert b < 0x80 || 0xF8 <= b; b
  }

  /** `v << s` on a `u32`, with k = 2^s: keeping the low 32 - s bits of v and then shifting is multiplying by k modulo 2^32. */
  lemma {:induction false} ShiftLeft(v: nat, k: nat)
    requires k == 0x08 || k == 0x10 || k == 0x20 || k == 0x40
    ensures (v % (U32 / k)) * k == (v * k) % U32
  {
    var m := U32 / k;
    assert m * k == U32;
    assert v == (v / m) * m + v % m;
    if k == 0x08 {
      ModU32(v * k, v / 0x2000_0000, (v % 0x2000_0000) * 0x08);
    } else if k == 0x10 {
      ModU32(v * k, v / 0x1000_0000, (v % 0x1000_0000) * 0x10);
    } else if k == 0x20 {
      ModU32(v * k, v / 0x800_0000, (v % 0x800_0000) * 0x20);
    } else {
      ModU32(v * k, v / 0x400_0000, (v % 0x400_0000) * 0x40);
    }
  }

  /** The remainder modulo 2^32 is the only value below 2^32 that differs from x by a multiple of 2^32. */
  lemma {:induction false} ModU32(x: nat, q: nat, r: nat)
    requires x == q * U32 + r && r < U32
    ensures x % U32 == r
  {
  }

  /** The loop of `get_amount` over the bytes it dequeues, front first. */
  function Accumulate(v: nat, bytes: seq<u8>): nat
    decreases |bytes|
  {
    if bytes == [] then v else Accumulate(Absorb(v, bytes[0]), bytes[1..])
  }

  /**
   * `get_amount(count)`: refuses a count above 4, leaves the buffer alone
   * when fewer than `count` bytes are buffered, and otherwise dequeues
   * exactly `count` bytes and decodes them. The final `from_u32(v).unwrap()`
   * aborts on a value that is not a scalar value.
   */
  function GetAmount(rb: seq<u8>, count: nat): (r: Read)
    ensures r.res == Other(InvalidCount) <==> count > 4
    ensures r.res.WouldBlock? <==> count <= 4 && |rb| < count
    ensures r.res.WouldBlock? || r.res.Other? ==> r.rest == rb
    ensures r.res.Ok? || r.res.Panic? ==> count <= |rb| && r.rest == rb[count..]
    ensures count <= 4 && count <= |rb| ==> r.res.Ok? || r.res.Panic?
  {
    if count > 4 then Read(rb, Other(InvalidCount))
    else if |rb| < count then Read(rb, WouldBlock)
    else
      var v := Accumulate(0, rb[..count]);
      if IsScalar(v) then Read(rb[count..], Ok(v as char)) else Read(rb[count..], Panic)
  }

  /** `get_amount(n).unwrap()` as `get_char` uses it: any error aborts. */
  function Unwrap(r: Read): (u: Read)
    ensures u.res.Ok? || u.res.Panic?
    ensures r.res.Ok? ==> u == r
    ensures !r.res.Ok? ==> u.res.Panic? && u.rest == r.rest
  {
    if r.res.Ok? then r else Read(r.rest, Panic)
  }

  /**
   * `get_char`: inspects the front byte without removing it, and dispatches
   * on its high bits. 11110xxx, 1110xxxx and 110xxxxx go to `get_amount`
   * with 4, 3 and 2; a continuation byte 10xxxxxx is refused and left in
   * place; any other byte (0x00-0x7F and 0xF8-0xFF) is dequeued as the
   * character whose code is the byte's value.
   */
  function GetChar(rb: seq<u8>): (r: Read)
    ensures r.res.WouldBlock? <==> rb == []
    ensures r.res.Other? <==> rb != [] && Utf8.IsContinuation(rb[0])
    ensures r.res.Other? ==> r.res.error == InvalidUTF8 && r.rest == rb
    ensures r.res.Ok? ==> |r.rest| < |rb| && r.rest == rb[|rb| - |r.rest|..]
    ensures r.res.Panic? ==> |r.rest| <= |rb| && r.rest == rb[|rb| - |r.rest|..]
    ensures rb != [] && (rb[0] < 0x80 || 0xF8 <= rb[0]) ==> r == Read(rb[1..], Ok(rb[0] as char))
  {
    if rb == [] then Read(rb, WouldBlock)
    else
      var b := rb[0];
      if b / 8 == 0x1E then Unwrap(GetAmount(rb, 4))
      else if b / 16 == 0xE then Unwrap(GetAmount(rb, 3))
      else if b / 32 == 0x6 then Unwrap(GetAmount(rb, 2))
      else if b / 64 == 0x2 then Read(rb, Other(InvalidUTF8))
      else Read(rb[1..], Ok(b as char))
  }

  predicate IsDelimiter(c: char) {
    c == ' ' || c == '=' || c == '\r' || c == '\n'
  }

  predicate DelimiterFree(s: string) {
    forall i :: 0 <= i < |s| ==> !IsDelimiter(s[i])
  }

  function DelimiterToken(c: char): Token
    requires IsDelimiter(c)
  {
    match c
    case ' ' => Space
    case '=' => Equals
    case '\r' => CarriageReturn
    case '\n' => NewLine
  }

  /** The text a token stands for in the input. */
  function TokenText(t: Token): string {
    match t
    case NewLine => "\n"
    case CarriageReturn => "\r"
    case Equals => "="
    case Space => " "
    case Value(s) => s
  }

  /** The input text a token sequence stands for. */
  function Text(toks: seq<Token>): string
    decreases |toks|
  {
    if toks == [] then [] else TokenText(toks[0]) + Text(toks[1..])
  }

  /** The `send_val` closure: the pending run as a `Value` token, unless it is empty. */
  function SendVal(s: string): seq<Token> {
    if s == [] then [] else [Value(s)]
  }

  lemma {:induction false} TextSendVal(s: string, d: Token)
    requires !d.Value?
    ensures Text(SendVal(s) + [d]) == s + TokenText(d)
  {
    if s == [] {
      assert SendVal(s) + [d] == [d];
    } else {
      assert (SendVal(s) + [d])[1..] == [d];
      assert Text([d]) == TokenText(d) + Text([]);
    }
  }

  /** The pending run fits the string capacity and holds no delimiter. */
  predicate Valid(tk: State, slen: nat) {
    && |tk.rb| <= InCap
    && DelimiterFree(tk.nextstr)
    && Utf8.ByteLen(tk.nextstr) <= slen
  }

  /**
   * Tokens as the loop emits them: every `Value` is non-empty, free of
   * delimiters, fits the string capacity, and is immediately followed by a
   * delimiter token.
   */
  predicate WellFormed(toks: seq<Token>, slen: nat) {
    forall i :: 0 <= i < |toks| && toks[i].Value? ==>
      && toks[i].text != []
      && DelimiterFree(toks[i].text)
      && Utf8.ByteLen(toks[i].text) <= slen
      && i + 1 < |toks| && !toks[i + 1].Value?
  }

  /** One pass of the loop of `get_tokens`: it either goes on, having read c, or returns. */
  datatype Step = Continue(tk: State, c: char, tokens: seq<Token>) | Stop(tk: State, res: Result<(), Error>)

  /**
   * The body of the loop of `get_tokens`. A delimiter flushes the pending run
   * and emits its own token; any other character is pushed onto the pending
   * run, unless the run would then exceed `slen` bytes: `String::push` fails
   * without changing the string and the loop returns `Overflow`, the
   * character already gone from `rb`.
   */
  function Next(tk: State, slen: nat): (r: Step)
    ensures r.Continue? ==> |r.tk.rb| < |tk.rb| && r.tk.rb == tk.rb[|tk.rb| - |r.tk.rb|..]
    ensures r.Continue? ==> r.tokens == [] || r.tk.nextstr == []
    ensures r.Stop? ==> !r.res.Ok? && |r.tk.rb| <= |tk.rb| && r.tk.rb == tk.rb[|tk.rb| - |r.tk.rb|..]
    ensures (r.Stop? && r.res.WouldBlock?) <==> tk.rb == []
    ensures r.Stop? && r.res == Other(Overflow) ==> r.tk.nextstr == tk.nextstr && |r.tk.rb| < |tk.rb|
    ensures (r.Stop? && r.res == Other(Overflow))
        <==> var rd := GetChar(tk.rb);
             rd.res.Ok? && !IsDelimiter(rd.res.value) && Utf8.ByteLen(tk.nextstr) + Utf8.Len(rd.res.value) > slen
  {
    var rd := GetChar(tk.rb);
    match rd.res
    case Ok(c) =>
      if IsDelimiter(c) then
        Continue(State(rd.rest, []), c, SendVal(tk.nextstr) + [DelimiterToken(c)])
      else if Utf8.ByteLen(tk.nextstr) + Utf8.Len(c) <= slen then
        Continue(State(rd.rest, tk.nextstr + [c]), c, [])
      else
        Stop(State(rd.rest, tk.nextstr), Other(Overflow))
    case WouldBlock => Stop(tk, WouldBlock)
    case Other(e) => Stop(State(rd.rest, tk.nextstr), Other(e))
    case Panic => Stop(State(rd.rest, tk.nextstr), Panic)
  }

  /**
   * One pass of the loop loses no text: the tokens it emits followed by the
   * new pending run spell the old pending run followed by the character read.
   */
  lemma {:induction false} NextConserves(tk: State, slen: nat)
    requires Next(tk, slen).Continue?
    ensures var r := Next(tk, slen); Text(r.tokens) + r.tk.nextstr == tk.nextstr + [r.c]
  {
    var r := Next(tk, slen);
    if IsDelimiter(r.c) {
      TextSendVal(tk.nextstr, DelimiterToken(r.c));
    }
  }

  /** One pass of the loop keeps the state valid and emits well-formed tokens. */
  lemma {:induction false} NextWellFormed(tk: State, slen: nat)
    requires Valid(tk, slen)
    ensures Valid(Next(tk, slen).tk, slen)
    ensures Next(tk, slen).Continue? ==> WellFormed(Next(tk, slen).tokens, slen)
  {
    var r := Next(tk, slen);
    if r.Continue? && !IsDelimiter(r.c) {
      Utf8.ByteLenAppend(tk.nextstr, [r.c]);
    }
  }

  /** What one call of `get_tokens` did: the state it left, the tokens it emitted, its result. */
  datatype Run = Run(tk: State, tokens: seq<Token>, res: Result<(), Error>)

  /** r1's tokens followed by r2's, ending as r2 ends. */
  function Then(r1: Run, r2: Run): Run {
    Run(r2.tk, r1.tokens + r2.tokens, r2.res)
  }

  /**
   * `get_tokens`: runs the loop until a character cannot be read or a push
   * fails. It has no other exit, so it never returns `Ok`; running dry
   * returns `WouldBlock`.
   */
  function GetTokens(tk: State, slen: nat): (r: Run)
    ensures !r.res.Ok?
    ensures r.res.WouldBlock? ==> r.tk.rb == []
    ensures |r.tk.rb| <= |tk.rb| && r.tk.rb == tk.rb[|tk.rb| - |r.tk.rb|..]
    decreases |tk.rb|
  {
    match Next(tk, slen)
    case Continue(tk', _, toks) => Then(Run(tk', toks, WouldBlock), GetTokens(tk', slen))
    case Stop(tk', res) => Run(tk', [], res)
  }

  /**
   * The loop keeps the pending run delimiter-free and within `slen` bytes,
   * and every token it emits is well formed: no `Value` is empty, holds a
   * delimiter or outgrows the string capacity, and each is followed by the
   * delimiter that ended it.
   */
  lemma {:induction false} GetTokensWellFormed(tk: State, slen: nat)
    requires Valid(tk, slen)
    ensures Valid(GetTokens(tk, slen).tk, slen) && WellFormed(GetTokens(tk, slen).tokens, slen)
    decreases |tk.rb|
  {
    var s := Next(tk, slen);
    NextWellFormed(tk, slen);
    if s.Continue? {
      GetTokensWellFormed(s.tk, slen);
      WellFormedAppend(s.tokens, GetTokens(s.tk, slen).tokens, slen);
    }
  }

  lemma {:induction false} WellFormedAppend(a: seq<Token>, b: seq<Token>, slen: nat)
    ensures WellFormed(a, slen) && WellFormed(b, slen) ==> WellFormed(a + b, slen)
  {
    if WellFormed(a, slen) && WellFormed(b, slen) {
    forall i | 0 <= i < |a + b| && (a + b)[i].Value?
      ensures i + 1 < |a + b| && !(a + b)[i + 1].Value?
    {
      if i < |a| {
        assert a[i].Value?;
      } else {
        assert b[i - |a|].Value?;
      }
    }
    }
  }

  /** One reply of the byte source to `read()`. */
  datatype ReadReply<+E> = Byte(b: u8) | Pending | Fault(error: E)

  /** What one call of `fill` did: the state it left, the replies not yet read, its result. */
  datatype FillRun<+E> = FillRun(tk: State, source: seq<ReadReply<E>>, res: Result<(), E>)

  /** The bytes the source delivers before its first non-byte reply. */
  function Arrived<E>(source: seq<ReadReply<E>>): (bytes: seq<u8>)
    ensures |bytes| <= |source|
    ensures |bytes| < |source| ==> !source[|bytes|].Byte?
    ensures forall i {:trigger bytes[i]} :: 0 <= i < |bytes| ==> source[i] == Byte(bytes[i])
    decreases |source|
  {
    if source == [] || !source[0].Byte? then [] else [source[0].b] + Arrived(source[1..])
  }

  /**
   * `fill`: reads the source until it says `WouldBlock` (then `Ok`) or fails
   * (its error, unchanged), enqueueing every byte read. The source is a
   * script of replies; once the script is used up it keeps answering
   * `WouldBlock`. The `unwrap()` on `enqueue` aborts when the buffer is full.
   */
  function Fill<E>(tk: State, source: seq<ReadReply<E>>): (r: FillRun<E>)
    requires |tk.rb| <= InCap
    ensures r.tk.nextstr == tk.nextstr
    ensures !r.res.WouldBlock?
    ensures r.res.Panic? <==> |tk.rb| + |Arrived(source)| > InCap
    ensures !r.res.Panic? ==> r.tk.rb == tk.rb + Arrived(source) && |r.tk.rb| <= InCap
    ensures r.res.Ok? ==> |Arrived(source)| == |source| || source[|Arrived(source)|] == Pending
    ensures r.res.Other? ==> |Arrived(source)| < |source| && source[|Arrived(source)|] == Fault(r.res.error)
    ensures !r.res.Panic? ==>
      r.source == if |Arrived(source)| < |source| then source[|Arrived(source)| + 1..] else []
    decreases |source|
  {
    if source == [] then FillRun(tk, source, Ok(()))
    else if source[0].Pending? then FillRun(tk, source[1..], Ok(()))
    else if source[0].Fault? then FillRun(tk, source[1..], Other(source[0].error))
    else
      var e := RingBuffer.Enqueue(tk.rb, source[0].b, InCap);
      if e.None? then FillRun(tk, source[1..], Panic)
      else
        assert Arrived(source) == [source[0].b] + Arrived(source[1..]);
        assert tk.rb + Arrived(source) == e.value + Arrived(source[1..]);
        Fill(tk.(rb := e.value), source[1..])
  }
}

=== FILE: tokenizer_lemmas.dfy ===
/**
 * Properties of the tokenizer: the decoder against the RFC 3629 layout, the
 * inputs that make it abort, and the behaviour of `get_tokens` when its
 * input arrives in pieces.
 */
module TokenizerLemmas {
  import opened Core
  import opened Nb
  import opened Tokenizer
  import Utf8

  /** A continuation byte carrying m shifts m into the accumulator. */
  lemma {:induction false} AbsorbContinuation(v: nat, m: nat)
    requires v < 0x400_0000 && m < 0x40
    ensures Absorb(v, 0x80 + m) == v * 0x40 + m
  {
  }

  /** Leading bytes 110xxxxx, 1110xxxx and 11110xxx start the accumulator at their payload. */
  lemma {:induction false} AbsorbLead(x: nat, n: nat)
    requires 2 <= n <= 4
    requires x < if n == 2 then 0x20 else if n == 3 then 0x10 else 0x08
    ensures Absorb(0, (if n == 2 then 0xC0 else if n == 3 then 0xE0 else 0xF0) + x) == x
  {
  }

  lemma {:induction false} Accumulate1(v: nat, b0: u8)
    ensures Accumulate(v, [b0]) == Absorb(v, b0)
  {
    assert [b0][1..] == [];
    assert Accumulate(v, [b0]) == Accumulate(Absorb(v, b0), []);
  }

  lemma {:induction false} Accumulate2(v: nat, b0: u8, b1: u8)
    ensures Accumulate(v, [b0, b1]) == Absorb(Absorb(v, b0), b1)
  {
    assert [b0, b1][1..] == [b1];
    assert Accumulate(v, [b0, b1]) == Accumulate(Absorb(v, b0), [b1]);
    Accumulate1(Absorb(v, b0), b1);
  }

  lemma {:induction false} Accumulate3(v: nat, b0: u8, b1: u8, b2: u8)
    ensures Accumulate(v, [b0, b1, b2]) == Absorb(Absorb(Absorb(v, b0), b1), b2)
  {
    assert [b0, b1, b2][1..] == [b1, b2];
    assert Accumulate(v, [b0, b1, b2]) == Accumulate(Absorb(v, b0), [b1, b2]);
    Accumulate2(Absorb(v, b0), b1, b2);
  }

  lemma {:induction false} Accumulate4(v: nat, b0: u8, b1: u8, b2: u8, b3: u8)
    ensures Accumulate(v, [b0, b1, b2, b3]) == Absorb(Absorb(Absorb(Absorb(v, b0), b1), b2), b3)
  {
    assert [b0, b1, b2, b3][1..] == [b1, b2, b3];
    assert Accumulate(v, [b0, b1, b2, b3]) == Accumulate(Absorb(v, b0), [b1, b2, b3]);
    Accumulate3(Absorb(v, b0), b1, b2, b3);
  }

  /** The shift tests of `get_char` pick the sequence length RFC 3629 gives a leading byte. */
  lemma {:induction false} GetCharDispatch(rb: seq<u8>)
    requires rb != [] && Utf8.LeadLength(rb[0]) >= 2
    ensures GetChar(rb) == Unwrap(GetAmount(rb, Utf8.LeadLength(rb[0])))
  {
  }

  /**
   * The decoder does not check continuation bytes: an ASCII byte inside a
   * sequence resets the accumulator to itself, so a sequence that ends in an
   * ASCII byte decodes to that byte, whatever came before it.
   */
  lemma {:induction false} AccumulateAsciiLast(v: nat, bytes: seq<u8>)
    requires bytes != [] && bytes[|bytes| - 1] < 0x80
    ensures Accumulate(v, bytes) == bytes[|bytes| - 1]
    decreases |bytes|
  {
    if |bytes| > 1 {
      assert bytes[1..][|bytes[1..]| - 1] == bytes[|bytes| - 1];
      AccumulateAsciiLast(Absorb(v, bytes[0]), bytes[1..]);
    } else {
      Accumulate1(v, bytes[0]);
      assert bytes == [bytes[0]];
    }
  }

  /**
   * A malformed multi-byte sequence is accepted, not reported as
   * `InvalidUTF8`: a lead byte announcing n bytes followed by n - 1 bytes
   * of which the last is ASCII reads as that ASCII character, and the lead
   * byte and the bytes between are dropped. `C3 41` reads as `A`.
   */
  lemma {:induction false} GetCharAsciiLast(seqn: seq<u8>, rest: seq<u8>)
    requires |seqn| >= 2 && Utf8.LeadLength(seqn[0]) == |seqn| && seqn[|seqn| - 1] < 0x80
    ensures GetChar(seqn + rest) == Read(rest, Ok(seqn[|seqn| - 1] as char))
  {
    var rb := seqn + rest;
    assert rb[0] == seqn[0];
    assert rb[..|seqn|] == seqn;
    assert rb[|seqn|..] == rest;
    GetCharDispatch(rb);
    AccumulateAsciiLast(0, seqn);
  }

  /** `C3 41`, a two-byte lead followed by `A`, reads as `A`. */
  lemma {:induction false} DroppedLead()
    ensures GetChar([0xC3, 0x41]) == Read([], Ok('A'))
  {
    assert [0xC3, 0x41] + [] == [0xC3, 0x41];
    GetCharAsciiLast([0xC3, 0x41], []);
  }

  lemma {:induction false} DecodeTwo(v: nat)
    requires 0x80 <= v < 0x800
    ensures Accumulate(0, Utf8.Pattern(v)) == v
  {
    var q1 := v / 0x40;
    var p := [0xC0 + q1, 0x80 + v % 0x40];
    assert Utf8.Pattern(v) == p;
    Accumulate2(0, p[0], p[1]);
    AbsorbLead(q1, 2);
    AbsorbContinuation(q1, v % 0x40);
  }

  lemma {:induction false} AbsorbThree(x2: nat, x1: nat, x0: nat)
    requires x2 < 0x10 && x1 < 0x40 && x0 < 0x40
    ensures Absorb(Absorb(Absorb(0, 0xE0 + x2), 0x80 + x1), 0x80 + x0) == (x2 * 0x40 + x1) * 0x40 + x0
  {
    AbsorbLead(x2, 3);
    AbsorbContinuation(x2, x1);
    AbsorbContinuation(x2 * 0x40 + x1, x0);
  }

  /** The three-byte layout, with the payload split by repeated division. */
  lemma {:induction false} PatternThree(v: nat)
    requires 0x800 <= v < 0x1_0000
    ensures Utf8.Pattern(v) == [0xE0 + v / 0x40 / 0x40, 0x80 + v / 0x40 % 0x40, 0x80 + v % 0x40]
  {
    assert v / 0x40 / 0x40 == v / 0x1000;
  }

  lemma {:induction false} DecodeThree(v: nat)
    requires 0x800 <= v < 0x1_0000
    ensures Accumulate(0, Utf8.Pattern(v)) == v
  {
    var q1 := v / 0x40;
    var q2 := q1 / 0x40;
    PatternThree(v);
    Accumulate3(0, 0xE0 + q2, 0x80 + q1 % 0x40, 0x80 + v % 0x40);
    AbsorbThree(q2, q1 % 0x40, v % 0x40);
    assert q1 * 0x40 + v % 0x40 == v;
    assert q2 * 0x40 + q1 % 0x40 == q1;
  }

  lemma {:induction false} AbsorbFour(x3: nat, x2: nat, x1: nat, x0: nat)
    requires x3 < 0x08 && x2 < 0x40 && x1 < 0x40 && x0 < 0x40
    ensures Absorb(Absorb(Absorb(Absorb(0, 0xF0 + x3), 0x80 + x2), 0x80 + x1), 0x80 + x0)
         == ((x3 * 0x40 + x2) * 0x40 + x1) * 0x40 + x0
  {
    AbsorbLead(x3, 4);
    AbsorbContinuation(x3, x2);
    AbsorbContinuation(x3 * 0x40 + x2, x1);
    AbsorbContinuation((x3 * 0x40 + x2) * 0x40 + x1, x0);
  }

  /** The four-byte layout, with the payload split by repeated division. */
  lemma {:induction false} PatternFour(v: nat)
    requires 0x1_0000 <= v < 0x20_0000
    ensures Utf8.Pattern(v) == [0xF0 + v / 0x40 / 0x40 / 0x40, 0x80 + v / 0x40 / 0x40 % 0x40, 0x80 + v / 0x40 % 0x40, 0x80 + v % 0x40]
  {
    assert v / 0x40 / 0x40 == v / 0x1000;
    assert v / 0x40 / 0x40 / 0x40 == v / 0x4_0000;
  }

  lemma {:induction false} DecodeFour(v: nat)
    requires 0x1_0000 <= v < 0x20_0000
    ensures Accumulate(0, Utf8.Pattern(v)) == v
  {
    var q1 := v / 0x40;
    var q2 := q1 / 0x40;
    var q3 := q2 / 0x40;
    PatternFour(v);
    Accumulate4(0, 0xF0 + q3, 0x80 + q2 % 0x40, 0x80 + q1 % 0x40, 0x80 + v % 0x40);
    AbsorbFour(q3, q2 % 0x40, q1 % 0x40, v % 0x40);
    assert q1 * 0x40 + v % 0x40 == v;
    assert q2 * 0x40 + q1 % 0x40 == q1;
    assert q3 * 0x40 + q2 % 0x40 == q2;
  }

  /**
   * The decoder inverts the RFC 3629 layout: the bytes of v at the front of
   * the buffer are dequeued and decode to v when v is a scalar value. When v
   * is a surrogate or lies above U+10FFFF, `from_u32(v).unwrap()` aborts.
   */
  lemma {:induction false} GetCharPattern(v: nat, rest: seq<u8>)
    requires v < 0x20_0000
    ensures GetChar(Utf8.Pattern(v) + rest)
         == if IsScalar(v) then Read(rest, Ok(v as char)) else Read(rest, Panic)
  {
    var p := Utf8.Pattern(v);
    var rb := p + rest;
    assert rb[0] == p[0];
    if v < 0x80 {
      assert rb[1..] == rest;
    } else {
      assert rb[..|p|] == p && rb[|p|..] == rest;
      GetCharDispatch(rb);
      if v < 0x800 {
        DecodeTwo(v);
      } else if v < 0x1_0000 {
        DecodeThree(v);
      } else {
        DecodeFour(v);
      }
    }
  }

  /** Round trip: the UTF-8 encoding of any character decodes to that character. */
  lemma {:induction false} GetCharEncode(c: char, rest: seq<u8>)
    ensures GetChar(Utf8.Encode(c) + rest) == Read(rest, Ok(c))
  {
    GetCharPattern(c as int, rest);
  }

  /**
   * A leading byte whose sequence is not completely buffered: `get_amount`
   * answers `WouldBlock` without consuming anything, and `get_char`'s
   * `unwrap()` turns that into an abort.
   */
  lemma {:induction false} ShortSequencePanics(rb: seq<u8>)
    requires rb != [] && Utf8.LeadLength(rb[0]) >= 2 && |rb| < Utf8.LeadLength(rb[0])
    ensures GetChar(rb) == Read(rb, Panic)
  {
  }

  /** A proper prefix of the encoding of a multi-byte character makes `get_char` abort. */
  lemma {:induction false} SplitCharacterPanics(c: char, k: nat)
    requires 0 < k < |Utf8.Encode(c)|
    ensures GetChar(Utf8.Encode(c)[..k]) == Read(Utf8.Encode(c)[..k], Panic)
  {
    ShortSequencePanics(Utf8.Encode(c)[..k]);
  }

  /** A character read successfully does not depend on the bytes buffered after it. */
  lemma {:induction false} GetCharAppend(a: seq<u8>, b: seq<u8>)
    requires GetChar(a).res.Ok?
    ensures GetChar(a + b) == Read(GetChar(a).rest + b, GetChar(a).res)
  {
    var b0 := a[0];
    assert (a + b)[0] == b0;
    if b0 / 8 == 0x1E || b0 / 16 == 0xE || b0 / 32 == 0x6 {
      var n := if b0 / 8 == 0x1E then 4 else if b0 / 16 == 0xE then 3 else 2;
      assert GetAmount(a, n).res.Ok?;
      assert (a + b)[..n] == a[..n];
      assert (a + b)[n..] == a[n..] + b;
    } else {
      assert (a + b)[1..] == a[1..] + b;
    }
  }

  /** One pass of the loop that goes on does not depend on the bytes buffered after it. */
  lemma {:induction false} NextAppend(a: seq<u8>, b: seq<u8>, ns: string, slen: nat)
    requires Next(State(a, ns), slen).Continue?
    ensures Next(State(a + b, ns), slen)
         == var s := Next(State(a, ns), slen); Continue(State(s.tk.rb + b, s.tk.nextstr), s.c, s.tokens)
  {
    GetCharAppend(a, b);
  }

  /** On an empty buffer `get_tokens` returns `WouldBlock` at once and keeps the pending run. */
  lemma {:induction false} GetTokensEmpty(ns: string, slen: nat)
    ensures GetTokens(State([], ns), slen) == Run(State([], ns), [], WouldBlock)
  {
  }

  lemma {:induction false} ThenIdentity(r: Run, ns: string)
    ensures Then(Run(State([], ns), [], WouldBlock), r) == r
  {
    assert [] + r.tokens == r.tokens;
  }

  /** One pass of the loop, seen from `get_tokens`. */
  lemma {:induction false} GetTokensUnfold(tk: State, slen: nat)
    requires Next(tk, slen).Continue?
    ensures GetTokens(tk, slen)
         == Then(Run(Next(tk, slen).tk, Next(tk, slen).tokens, WouldBlock), GetTokens(Next(tk, slen).tk, slen))
  {
  }

  /** The first pass over `a + b` when `get_tokens` drains `a`. */
  lemma {:induction false} SplitStep(a: seq<u8>, b: seq<u8>, ns: string, slen: nat)
    requires a != [] && GetTokens(State(a, ns), slen).res.WouldBlock?
    ensures var s := Next(State(a, ns), slen);
      && s.Continue?
      && GetTokens(State(a, ns), slen) == Then(Run(s.tk, s.tokens, WouldBlock), GetTokens(s.tk, slen))
      && GetTokens(State(a + b, ns), slen)
         == Then(Run(State(s.tk.rb + b, s.tk.nextstr), s.tokens, WouldBlock), GetTokens(State(s.tk.rb + b, s.tk.nextstr), slen))
  {
    var s := Next(State(a, ns), slen);
    GetTokensUnfold(State(a, ns), slen);
    NextAppend(a, b, ns, slen);
    GetTokensUnfold(State(a + b, ns), slen);
  }

  /**
   * Chunk invariance. When one call of `get_tokens` drains the bytes `a`
   * (it returns `WouldBlock`), then buffering `b` and calling it again emits
   * exactly what one call over `a + b` emits, and ends in the same state:
   * the pending run carried in `nextstr` reassembles a value split across
   * the two calls.
   */
  lemma {:induction false} GetTokensSplit(a: seq<u8>, b: seq<u8>, ns: string, slen: nat)
    requires GetTokens(State(a, ns), slen).res.WouldBlock?
    ensures GetTokens(State(a + b, ns), slen)
         == Then(GetTokens(State(a, ns), slen), GetTokens(State(b, GetTokens(State(a, ns), slen).tk.nextstr), slen))
    decreases |a|
  {
    if a == [] {
      assert a + b == b;
      GetTokensEmpty(ns, slen);
      ThenIdentity(GetTokens(State(b, ns), slen), ns);
    } else {
      var s := Next(State(a, ns), slen);
      SplitStep(a, b, ns, slen);
      GetTokensSplit(s.tk.rb, b, s.tk.nextstr, slen);
      SplitCombine(a, b, ns, slen);
    }
  }

  /** The inductive step of `GetTokensSplit`, given its claim for the bytes after the first character. */
  lemma {:induction false} SplitCombine(a: seq<u8>, b: seq<u8>, ns: string, slen: nat)
    requires a != [] && GetTokens(State(a, ns), slen).res.WouldBlock?
    requires var s := Next(State(a, ns), slen);
      && s.Continue?
      && GetTokens(s.tk, slen).res.WouldBlock?
      && GetTokens(State(s.tk.rb + b, s.tk.nextstr), slen)
         == Then(GetTokens(s.tk, slen), GetTokens(State(b, GetTokens(s.tk, slen).tk.nextstr), slen))
    ensures GetTokens(State(a + b, ns), slen)
         == Then(GetTokens(State(a, ns), slen), GetTokens(State(b, GetTokens(State(a, ns), slen).tk.nextstr), slen))
  {
    SplitStep(a, b, ns, slen);
    var s := Next(State(a, ns), slen);
    var head := Run(s.tk, s.tokens, WouldBlock);
    var rest := GetTokens(s.tk, slen);
    var last := GetTokens(State(b, rest.tk.nextstr), slen);
    assert s.tk == State(s.tk.rb, s.tk.nextstr);
    ThenAssoc(head, rest, last);
    assert Then(Run(State(s.tk.rb + b, s.tk.nextstr), s.tokens, WouldBlock), Then(rest, last))
        == Then(head, Then(rest, last));
  }

  lemma {:induction false} ThenAssoc(x: Run, y: Run, z: Run)
    ensures Then(x, Then(y, z)) == Then(Then(x, y), z)
  {
    assert x.tokens + (y.tokens + z.tokens) == (x.tokens + y.tokens) + z.tokens;
  }

  /** Bytes that all lie below 0x80. */
  predicate IsAscii(bytes: seq<u8>) {
    forall i :: 0 <= i < |bytes| ==> bytes[i] < 0x80
  }

  /**
   * On ASCII input the tokenizer neither aborts nor reports a decoding
   * error: it drains the buffer or stops at a run longer than `slen`.
   */
  lemma {:induction false} GetTokensAscii(tk: State, slen: nat)
    requires IsAscii(tk.rb)
    ensures GetTokens(tk, slen).res in {WouldBlock, Other(Overflow)}
    decreases |tk.rb|
  {
    var s := Next(tk, slen);
    if s.Continue? {
      assert tk.rb[1..] == s.tk.rb;
      assert IsAscii(s.tk.rb) by {
        forall i | 0 <= i < |s.tk.rb| ensures s.tk.rb[i] < 0x80 {
          assert s.tk.rb[i] == tk.rb[i + 1];
        }
      }
      GetTokensAscii(s.tk, slen);
    }
  }

  lemma {:induction false} TextAppend(a: seq<Token>, b: seq<Token>)
    ensures Text(a + b) == Text(a) + Text(b)
    decreases |a|
  {
    if a == [] {
      assert a + b == b;
    } else {
      assert (a + b)[1..] == a[1..] + b;
      TextAppend(a[1..], b);
    }
  }

  /**
   * A run that consumed the whole buffer without error, and whose emitted
   * tokens followed by the pending run it leaves spell `text`.
   */
  predicate Drains(r: Run, text: string) {
    r.res.WouldBlock? && r.tk.rb == [] && Text(r.tokens) + r.tk.nextstr == text
  }

  /**
   * Tokenization loses nothing: on the UTF-8 encoding of s, provided the
   * pending run never outgrows `slen`, `get_tokens` drains the buffer, and
   * the emitted tokens followed by the new pending run spell the old pending
   * run followed by s.
   */
  lemma {:induction false} GetTokensLossless(s: string, ns: string, slen: nat)
    requires Utf8.ByteLen(ns + s) <= slen
    ensures Drains(GetTokens(State(Utf8.EncodeString(s), ns), slen), ns + s)
    decreases |s|
  {
    if s == [] {
      GetTokensEmpty(ns, slen);
      assert ns + s == ns;
    } else {
      var st := LosslessStep(s, ns, slen);
      GetTokensLossless(s[1..], st.tk.nextstr, slen);
      assert st.tk == State(Utf8.EncodeString(s[1..]), st.tk.nextstr);
      PassDrains(State(Utf8.EncodeString(s), ns), slen, ns + [s[0]], s[1..]);
      AppendHead(ns, s);
    }
  }

  lemma {:induction false} AppendHead(ns: string, s: string)
    requires s != []
    ensures (ns + [s[0]]) + s[1..] == ns + s
  {
    assert s == [s[0]] + s[1..];
  }

  /** The first pass over the encoding of a non-empty s reads s[0] and stays within `slen`. */
  lemma {:induction false} LosslessStep(s: string, ns: string, slen: nat) returns (st: Step)
    requires s != [] && Utf8.ByteLen(ns + s) <= slen
    ensures st == Next(State(Utf8.EncodeString(s), ns), slen)
    ensures st.Continue? && st.c == s[0] && st.tk.rb == Utf8.EncodeString(s[1..])
    ensures Text(st.tokens) + st.tk.nextstr == ns + [s[0]]
    ensures Utf8.ByteLen(st.tk.nextstr + s[1..]) <= slen
  {
    var c := s[0];
    GetCharEncode(c, Utf8.EncodeString(s[1..]));
    st := Next(State(Utf8.EncodeString(s), ns), slen);
    Utf8.ByteLenAppend(ns, s);
    Utf8.ByteLenAppend(ns, [c]);
    assert Utf8.ByteLen(s) == Utf8.Len(c) + Utf8.ByteLen(s[1..]);
    NextConserves(State(Utf8.EncodeString(s), ns), slen);
    Utf8.ByteLenAppend(st.tk.nextstr, s[1..]);
    if st.tk.nextstr != [] {
      assert st.tk.nextstr == ns + [c];
    }
  }

  /**
   * The inductive step of `GetTokensLossless`: a first pass accounting for
   * `pre`, followed by a run that drains the rest, drains the whole buffer.
   */
  lemma {:induction false} PassDrains(tk: State, slen: nat, pre: string, tail: string)
    requires Next(tk, slen).Continue?
    requires Text(Next(tk, slen).tokens) + Next(tk, slen).tk.nextstr == pre
    requires Drains(GetTokens(Next(tk, slen).tk, slen), Next(tk, slen).tk.nextstr + tail)
    ensures Drains(GetTokens(tk, slen), pre + tail)
  {
    var st := Next(tk, slen);
    GetTokensUnfold(tk, slen);
    ThenDrains(Run(st.tk, st.tokens, WouldBlock), GetTokens(st.tk, slen), pre, tail);
  }

  /**
   * A first pass accounting for `pre`, followed by a draining run that accounts
   * for the pending run followed by `tail`, together account for `pre + tail`.
   */
  lemma {:induction false} ThenDrains(head: Run, rest: Run, pre: string, tail: string)
    requires Text(head.tokens) + head.tk.nextstr == pre
    requires Drains(rest, head.tk.nextstr + tail)
    ensures Drains(Then(head, rest), pre + tail)
  {
    var z := Then(head, rest);
    var a, b, c := Text(head.tokens), head.tk.nextstr, Text(rest.tokens);
    assert (a + c) + rest.tk.nextstr == a + (c + rest.tk.nextstr);
    assert (a + b) + tail == a + (b + tail);
    TextAppend(head.tokens, rest.tokens);
    assert Text(z.tokens) == a + c;
  }

  /**
   * A delimiter-free run is absorbed into the pending run without emitting
   * anything, as long as the pending run stays within `slen` bytes.
   */
  lemma {:induction false} GetTokensWord(w: string, ns: string, slen: nat)
    requires DelimiterFree(w) && Utf8.ByteLen(ns + w) <= slen
    ensures GetTokens(State(Utf8.EncodeString(w), ns), slen) == Run(State([], ns + w), [], WouldBlock)
    decreases |w|
  {
    if w == [] {
      assert ns + w == ns;
    } else {
      WordStep(w, ns, slen);
      GetTokensWord(w[1..], ns + [w[0]], slen);
      SilentPass(State(Utf8.EncodeString(w), ns), slen);
      AppendHead(ns, w);
    }
  }

  /** The first pass over a delimiter-free word appends its first character to the pending run. */
  lemma {:induction false} WordStep(w: string, ns: string, slen: nat)
    requires w != [] && DelimiterFree(w) && Utf8.ByteLen(ns + w) <= slen
    ensures Next(State(Utf8.EncodeString(w), ns), slen)
         == Continue(State(Utf8.EncodeString(w[1..]), ns + [w[0]]), w[0], [])
    ensures DelimiterFree(w[1..]) && Utf8.ByteLen(ns + [w[0]] + w[1..]) <= slen
  {
    var c := w[0];
    GetCharEncode(c, Utf8.EncodeString(w[1..]));
    Utf8.ByteLenAppend(ns, w);
    Utf8.ByteLenAppend(ns, [c]);
    Utf8.ByteLenAppend(ns + [c], w[1..]);
    assert Utf8.ByteLen(w) == Utf8.Len(c) + Utf8.ByteLen(w[1..]);
    assert !IsDelimiter(w[0]);
    AppendHead(ns, w);
    assert DelimiterFree(w[1..]) by {
      forall i | 0 <= i < |w[1..]| ensures !IsDelimiter(w[1..][i]) {
        assert w[1..][i] == w[i + 1];
      }
    }
  }

  /** A pass that emits nothing leaves the rest of the run to the next state. */
  lemma {:induction false} SilentPass(tk: State, slen: nat)
    requires Next(tk, slen).Continue? && Next(tk, slen).tokens == []
    ensures GetTokens(tk, slen) == GetTokens(Next(tk, slen).tk, slen)
  {
    var st := Next(tk, slen);
    GetTokensUnfold(tk, slen);
    var r' := GetTokens(st.tk, slen);
    assert [] + r'.tokens == r'.tokens;
  }

  /** A delimiter flushes the pending run, then emits its own token. */
  lemma {:induction false} GetTokensDelimiter(d: char, ns: string, slen: nat)
    requires IsDelimiter(d)
    ensures GetTokens(State(Utf8.EncodeString([d]), ns), slen)
         == Run(State([], []), SendVal(ns) + [DelimiterToken(d)], WouldBlock)
  {
    assert Utf8.EncodeString([d]) == Utf8.Encode(d) + [];
    GetCharEncode(d, []);
  }

  /**
   * A character that does not fit what is left of the string capacity stops
   * `get_tokens` with `Overflow` at once: the character is gone from the
   * buffer, the pending run is unchanged, and nothing is emitted.
   */
  lemma {:induction false} OverflowStep(c: char, rest: seq<u8>, ns: string, slen: nat)
    requires !IsDelimiter(c) && slen < Utf8.ByteLen(ns) + Utf8.Len(c)
    ensures GetTokens(State(Utf8.Encode(c) + rest, ns), slen) == Run(State(rest, ns), [], Other(Overflow))
  {
    GetCharEncode(c, rest);
  }

  /**
   * A word that fits, followed by a character that does not: the word is
   * gathered into the pending run, and `get_tokens` returns `Overflow` at
   * the byte that would overflow, right after that character.
   */
  lemma {:induction false} GetTokensOverflow(w: string, c: char, rest: seq<u8>, ns: string, slen: nat)
    requires DelimiterFree(w) && !IsDelimiter(c)
    requires Utf8.ByteLen(ns + w) <= slen < Utf8.ByteLen(ns + w) + Utf8.Len(c)
    ensures GetTokens(State(Utf8.EncodeString(w) + (Utf8.Encode(c) + rest), ns), slen)
         == Run(State(rest, ns + w), [], Other(Overflow))
  {
    var r1 := Run(State([], ns + w), [], WouldBlock);
    var r2 := Run(State(rest, ns + w), [], Other(Overflow));
    assert Then(r1, r2) == r2;
    GetTokensWord(w, ns, slen);
    OverflowStep(c, rest, ns + w, slen);
    GetTokensSplit(Utf8.EncodeString(w), Utf8.Encode(c) + rest, ns, slen);
  }

  /** The source script of a device that holds `bytes` and then has nothing more. */
  function Script<E>(bytes: seq<u8>): (src: seq<ReadReply<E>>)
    ensures |src| == |bytes|
    ensures forall i :: 0 <= i < |bytes| ==> src[i] == Byte(bytes[i])
  {
    seq(|bytes|, i requires 0 <= i < |bytes| => Byte(bytes[i]))
  }

  /**
   * Filling from a device that holds `bytes` enqueues all of them in arrival
   * order and returns `Ok`, or aborts when they do not fit in the buffer.
   */
  lemma {:induction false} FillScript<E>(tk: State, bytes: seq<u8>)
    requires |tk.rb| <= InCap
    ensures var r := Fill(tk, Script<E>(bytes));
      if |tk.rb| + |bytes| <= InCap then r.res.Ok? && r.tk == State(tk.rb + bytes, tk.nextstr)
      else r.res.Panic?
  {
    ArrivedScript<E>(bytes);
  }

  lemma {:induction false} ArrivedScript<E>(bytes: seq<u8>)
    ensures Arrived(Script<E>(bytes)) == bytes
    decreases |bytes|
  {
    if bytes != [] {
      assert Script<E>(bytes)[1..] == Script<E>(bytes[1..]);
      ArrivedScript<E>(bytes[1..]);
      assert bytes == [bytes[0]] + bytes[1..];
    }
  }
}

=== FILE: utf8.dfy ===
/**
 * UTF-8 as laid out in section 3 of RFC 3629. It is the reference the
 * tokenizer's decoder is proved against. It is also how Rust's `str` stores
 * text, so the bytes a caller hands over for a `&str` are `EncodeString` of it.
 */
module Utf8 {
  import opened Core

  /** A continuation byte, 10xxxxxx. */
  predicate IsContinuation(b: u8) {
    0x80 <= b < 0xC0
  }

  /**
   * The length of the sequence a leading byte announces in the table of
   * section 3 of RFC 3629; 0 for a byte that cannot lead a sequence.
   */
  function LeadLength(b: u8): nat {
    if b < 0x80 then 1
    else if b < 0xC0 then 0
    else if b < 0xE0 then 2
    else if b < 0xF0 then 3
    else if b < 0xF8 then 4
    else 0
  }

  /** The number of bytes the RFC 3629 layout uses for the value v. */
  function Width(v: nat): nat {
    if v < 0x80 then 1
    else if v < 0x800 then 2
    else if v < 0x1_0000 then 3
    else 4
  }

  /** Rust's `char::len_utf8`. */
  function Len(c: char): nat {
    Width(c as int)
  }

  /**
   * The RFC 3629 bit layout of v. It is defined for every v below 2^21, the
   * widest value the four-byte form carries, so that it also describes the
   * byte patterns that look well formed but stand for a surrogate or for a
   * value above U+10FFFF.
   */
  function Pattern(v: nat): (r: seq<u8>)
    requires v < 0x20_0000
    ensures |r| == Width(v)
    ensures LeadLength(r[0]) == |r|
    ensures forall i :: 1 <= i < |r| ==> IsContinuation(r[i])
  {
    if v < 0x80 then [v]
    else if v < 0x800 then [0xC0 + v / 0x40, 0x80 + v % 0x40]
    else if v < 0x1_0000 then [0xE0 + v / 0x1000, 0x80 + (v / 0x40) % 0x40, 0x80 + v % 0x40]
    else [0xF0 + v / 0x4_0000, 0x80 + (v / 0x1000) % 0x40, 0x80 + (v / 0x40) % 0x40, 0x80 + v % 0x40]
  }

  /** The UTF-8 encoding of one scalar value. */
  function Encode(c: char): seq<u8> {
    Pattern(c as int)
  }

  /** The length in bytes of the UTF-8 encoding of s (`str::len`). */
  function ByteLen(s: string): nat {
    if s == [] then 0 else Len(s[0]) + ByteLen(s[1..])
  }

  /** The UTF-8 encoding of a string (`str::as_bytes`). */
  function EncodeString(s: string): (r: seq<u8>)
    ensures |r| == ByteLen(s)
  {
    if s == [] then [] else Encode(s[0]) + EncodeString(s[1..])
  }

  lemma {:induction false} ByteLenAppend(s: string, t: string)
    ensures ByteLen(s + t) == ByteLen(s) + ByteLen(t)
    decreases |s|
  {
    if s != [] {
      assert (s + t)[1..] == s[1..] + t;
      ByteLenAppend(s[1..], t);
    } else {
      assert s + t == t;
    }
  }

  lemma {:induction false} EncodeStringAppend(s: string, t: string)
    ensures EncodeString(s + t) == EncodeString(s) + EncodeString(t)
    decreases |s|
  {
    if s != [] {
      assert (s + t)[1..] == s[1..] + t;
      EncodeStringAppend(s[1..], t);
    } else {
      assert s + t == t;
    }
  }

  /** Every character takes between one and four bytes. */
  lemma {:induction false} ByteLenBounds(s: string)
    ensures |s| <= ByteLen(s) <= 4 * |s|
    decreases |s|
  {
    if s != [] {
      ByteLenBounds(s[1..]);
    }
  }
}
